=== FILE: README.md ===
# Health assistant core, modelled in Dafny

This project models the decision logic of a healthcare web application and proves
properties of it. The application has an Express server, a Firebase cloud function and a
React front end. The model covers these pieces:

- **Symptom triage** (`/analyze-symptoms` in `server/server.js`). A request missing a field
  is refused. Otherwise the red-flag keyword scan can return Red straight away, without
  consulting the language model. If it does not, the yellow scan sets a risk floor. The
  model's reply then goes through the `{…}` extraction and the 85/65 thresholds, and the
  explanation is built. Modules `Keywords`, `JsonSpan` and `Triage`; `Text` holds the string
  primitives.
- **Chat prompt** (`/chat`): the language-code map and the prompt. Module `Chat`.
- **Medicine "verification"** (`/verify-medicine`): a byte sum, reduced to a confidence
  between 55 and 88, then put into one of three bands. Module `MedicineCheck`.
- **Upload function** (`predict` in `hackathon_II/functions/index.js`). The request
  guards run in a fixed order, then come the file-name sanitiser and the storage path.
  Module `Upload`.
- **Profile rules** (`src/pages/Profile.tsx`): adding and deleting family members, and
  reminders for members. Module `Family`.
- **Emergency modal** (`src/components/SOSModal.tsx`), modelled as a state machine.
  Module `Sos`.
- **Medicine reminders** (`src/components/MedicineReminders.tsx`). This covers the
  "HH:MM" value, the next-fire rule, the pending timers and the timeout table, and the
  set and delete handlers. Module `Reminders`.
- **Settings** (`src/contexts/SettingsContext.tsx`). This covers the local restore with its
  whitelists, the cloud override, and the three setters. Module `Settings`.

The language model and `JSON.parse` enter as parameters:

- The model's reply is `OracleReply`: either it threw, or it replied with a text.
- `JSON.parse` is any function `string -> Option<Parsed>`.

Firebase calls enter as booleans or values saying how they ended: `verifyIdToken`'s uid,
whether a write succeeded, and the document id. The clock is an integer `now`, in local
milliseconds.

When the model call fails, the code answers with the single condition
`{"Unable to analyze", 0}`, not with an empty list (`Triage.FailedModelKeepsFloor`).

A parsed reply whose first condition is `null` makes the read of its `confidence` throw.
The outer handler then answers 500 with Green, no conditions, the `error` triage type and
the thrown message (`Triage.NullEntryGivesServerError`).

The model's confidence thresholds (server/server.js:249-257) never fire in the code as
written. The extraction regex only matches a brace span with no braces inside it, so
`JSON.parse` receives a text in which no object can be nested, and no entry of its
`topConditions` can be an object with a `confidence`. The parser is a parameter of the
model. `Triage.JsonFaithful` states this property of `JSON.parse`, and under it
`Triage.ModelNeverRaisesRisk` shows that every 200 answer of the model path carries exactly
the keyword floor and is never Red. `Triage.PromptedShapeFallsToFloor` shows the
same for the nested shape the prompt asks for: the parser is handed the first inner
condition object, the reply yields no conditions, and the explanation is the stand-in
text.

## Model

| member | source | states |
|---|---|---|
| Text.LowerIsIdempotent | server/server.js:116 | lower-cased text has no ASCII capitals left and lower-casing again changes nothing |
| Text.Includes | server/server.js:118 | `includes` is true exactly when the keyword occurs at some index of the text |
| Text.Trim | src/components/MedicineReminders.tsx:132 | the trimmed text is a contiguous piece of the input with only white space cut off on either side, and it neither starts nor ends with white space |
| Text.TrimEmptyIffBlank | src/components/MedicineReminders.tsx:132 | `trim()` is empty exactly when the input is all ECMAScript white space |
| Text.TrimIsIdempotent | src/components/MedicineReminders.tsx:143-145 | trimming a stored, trimmed name or note again leaves it as it is |
| Text.ParseIntShow | src/pages/Profile.tsx:273 | `parseInt` reads back every decimal number written without leading zeros. JavaScript agrees up to 2^53 |
| Keywords.FirstMatch | server/server.js:115-133 | a hit is the first list entry occurring in the lower-cased text; no hit exactly when no entry occurs |
| Keywords.FirstMatchIsEarliest | server/server.js:117-120 | if entry i occurs, the scan returns a list entry at index at most i, and it occurs in the lower-cased text |
| Keywords.ScanIgnoresCase | server/server.js:115-133 | texts that agree after lower-casing get the same red and yellow results |
| Keywords.RedKeywordInAnyCase | server/server.js:39-69 | a red keyword found, in any ASCII case, in the symptoms makes the red check fire |
| Keywords.ChestPainIsRed | server/server.js:40 | "I have Chest Pain and sweating" is flagged red with the keyword "chest pain" |
| JsonSpan.Scan | server/server.js:228 | the scan returns the leftmost brace-free `{…}` span, or reports that there is none |
| JsonSpan.Extract | server/server.js:228 | `match(/\{[^{}]*\}/)` returns the text of the first span with no inner braces, and fails exactly when there is no such span |
| JsonSpan.FirstSpanIsUnique | server/server.js:228 | the first span is determined by the text alone |
| JsonSpan.NestedReplyYieldsInnerObject | server/server.js:214-230 | for an object nested in another, the extraction yields the inner object, not the outer one |
| JsonSpan.ExtractIsFlat | server/server.js:227-229 | whatever the reply, the extracted text is a `{…}` with no brace between its delimiters |
| JsonSpan.FlatReplyYieldsItself | server/server.js:228 | a reply holding one object with no braces inside it, surrounded by brace-free text, yields exactly that object |
| Triage.FinalRisk | server/server.js:247-257 | the final risk is never below the floor, and it equals the greater of the floor and what the top confidence alone calls for |
| Triage.RedAlert | server/server.js:177 | the red explanation quotes the detected keyword |
| Triage.Analyze | server/server.js:146-298 | a missing field gives 400, Green, no conditions and the missing-fields text. A red keyword gives 200, Red, no conditions, `rule-based-red`, that keyword quoted in the text. Otherwise the answer is 500 exactly when the model's first condition is `null`, with Green, no conditions, the `error` type and the thrown message. In the remaining case the answer is 200 with the model's conditions, the risk is at least the floor and not Green with a yellow keyword, and it is Red exactly when the top confidence exceeds 85 |
| Triage.RedPathIgnoresOracle | server/server.js:168-182 | on the red path the response is the same whatever the model replies and whatever the parser does |
| Triage.MissingFieldsIgnoresEverythingElse | server/server.js:150-157 | the missing-field refusal does not depend on the model or the parser |
| Triage.ThresholdsAreStrict | server/server.js:249-257 | exactly 85 gives Yellow and exactly 65 keeps the floor. A confidence in (65, 85] gives Yellow from a Green or Yellow floor; a low or missing confidence keeps the floor |
| Triage.FinalRiskIsMonotone | server/server.js:247-257 | a higher floor or a higher top confidence never lowers the final risk |
| Triage.FailedModelKeepsFloor | server/server.js:234-242 | a thrown call or a reply with no span gives the floor as risk and the single fallback condition with confidence 0. The explanation is the consult-a-provider advice, after the yellow notice when there is one |
| Triage.ExplanationOnModelPath | server/server.js:264-272 | the explanation is the assessment (or its stand-in), preceded by the yellow notice exactly when a yellow keyword was found. The emergency prefix never comes from the composer |
| Triage.YellowNoticeIsNotEmergency | server/server.js:266-271 | a text carrying the yellow notice never starts with the emergency prefix |
| Triage.NullEntryGivesServerError | server/server.js:242-298 | a reply whose object parses to a list starting with `null` gives 500 and Green with no conditions, even when a yellow keyword set a Yellow floor |
| Triage.ModelNeverRaisesRisk | server/server.js:224-257 | with a parser that behaves as `JSON.parse` on such a text, every 200 answer on the model path has exactly the keyword floor as risk and is never Red: the confidence thresholds never fire |
| Triage.PromptedShapeFallsToFloor | server/server.js:214-242 | a reply in the prompted nested shape yields no conditions, the floor as risk, and the stand-in assessment |
| Chat.LanguageName | server/server.js:320-326 | the prompt language is Hindi exactly for "hi", Marathi exactly for "mr", and English otherwise |
| Chat.Respond | server/server.js:311-346 | the answer is 400 with "Message required" exactly when the message is falsy. It is 200 exactly when the message is present and the model replies to the prompt for the mapped language, and then the body is that reply. Otherwise it is 500 with the unavailable text |
| Chat.RefusalIgnoresModel | server/server.js:315-317 | the refusal of a falsy message is the same whatever the model does |
| Chat.ModelSeesLanguageAndMessage | server/server.js:326-341 | the prompt contains both the language name and the message, and two models that answer that prompt alike give the same response |
| Chat.PromptCarriesLanguageAndMessage | server/server.js:329-336 | the prompt names the selected language and ends with the user's message |
| Chat.KnownCodesAreDistinct | server/server.js:320-326 | the three codes map to three different languages, and every other code or a missing one maps to English |
| MedicineCheck.Confidence | server/server.js:373-382 | the confidence always lies in [55, 88] |
| MedicineCheck.Verify | server/server.js:358-411 | no image gives the 400 answer. Otherwise the loop's sum gives the confidence, and the band and message follow from it |
| MedicineCheck.SumAppend | server/server.js:373-376 | the byte sum of a concatenation is the sum of the parts |
| MedicineCheck.ScoreIgnoresOrder | server/server.js:373-382 | swapping two halves of the image does not change the confidence |
| MedicineCheck.EveryScoreOccurs | server/server.js:382 | every confidence from 55 to 88 is produced by some one-byte image |
| MedicineCheck.BandsAreOrdered | server/server.js:387-411 | the bands are ordered by confidence (High below 65, Moderate 65 to 75, Low above), and each band occurs |
| Upload.BearerToken | hackathon_II/functions/index.js:24-25 | there is a token exactly when the header starts with "Bearer ", and then the header is "Bearer " followed by the token |
| Upload.BearerTokenRoundTrip | hackathon_II/functions/index.js:25 | "Bearer " followed by any token gives that token back |
| Upload.Sanitize | hackathon_II/functions/index.js:42 | same length as the input, only `[a-zA-Z0-9_.-]` in the output, allowed characters kept in place and every other character replaced by `_` |
| Upload.SanitizeIsIdempotent | hackathon_II/functions/index.js:42 | sanitising twice is sanitising once, and a name is left unchanged exactly when it has only allowed characters |
| Upload.PathStaysInUserFolder | hackathon_II/functions/index.js:42-43 | with slash-free uid and scan id, the path starts with `uploads/<uid>/` and has no other slash, whatever the client's file name |
| Upload.Predict | hackathon_II/functions/index.js:17-69 | an OPTIONS request gets the 204 preflight answer of the `cors` wrapper, which does not run the handler. 405 exactly for a method other than POST or OPTIONS, then 401 exactly for a missing or empty token. Past those, 400 exactly when the token verifies and the image is falsy, a stored result exactly when the token verifies, the image is present and the writes succeed, and a failure otherwise. A stored result has path `uploads/<uid>/<scanId>-<safe name>` |
| Upload.StoredScanStaysInUserFolder | hackathon_II/functions/index.js:31-48 | a verified upload with an image is stored, under `uploads/<uid>/` of the verified uid, whatever the file name |
| Upload.GuardsPrecedeVerification | hackathon_II/functions/index.js:19-29 | an OPTIONS preflight (204), a method other than POST or OPTIONS, a non-Bearer header, or the header "Bearer " alone is answered with 204, 405 or 401, whatever the verifier does |
| Family.AddMember | src/pages/Profile.tsx:228-285 | the checks apply in the order authentication, capacity 4, missing field, case-insensitive duplicate name, and each refusal happens exactly under its condition. A successful add appends exactly the new member and keeps the others in order |
| Family.AddKeepsListWellFormed | src/pages/Profile.tsx:239-265 | adding keeps the list at four members or fewer, with names distinct up to case |
| Family.RemoveId | src/pages/Profile.tsx:318 | the filter keeps exactly the members whose id differs |
| Family.RemoveIdKeepsOrder | src/pages/Profile.tsx:318 | the filter distributes over concatenation, so the remaining members keep their order |
| Family.DeleteMember | src/pages/Profile.tsx:307-318 | signed out, or a failed delete, leaves the list alone; otherwise exactly the members with other ids remain |
| Family.RemoveAbsentId | src/pages/Profile.tsx:318 | removing an id nobody has changes nothing |
| Family.DeleteUndoesAdd | src/pages/Profile.tsx:278-318 | deleting the member just added, whose id was new, restores the previous list |
| Family.FindMember | src/pages/Profile.tsx:358 | the found member is the first in the list with that id; nothing is found exactly when no member has the id |
| Family.AddReminder | src/pages/Profile.tsx:338-383 | refused exactly when signed out, refused exactly when the member, message or datetime is missing, and silently ignored exactly when no member has the id. For a found member, an invalid time is reported exactly when the time is not in the future, a save failure exactly when the date did not parse or the write failed, and the reminder is created exactly when the time is in the future and the write succeeded. A created reminder carries the name of the first member with that id |
| Family.PastReminderIsRefused | src/pages/Profile.tsx:361-369 | a time at or before now is refused for any known member |
| Sos.Cancel | src/components/SOSModal.tsx:53-57 | cancel closes the modal and gives confirmation with counter 10, keeping data and error |
| Sos.CountdownTick | src/components/SOSModal.tsx:42-51 | in countdown, a positive counter drops by exactly one and zero enters processing; other screens are untouched |
| Sos.Finish | src/components/SOSModal.tsx:111-132 | success exactly when the location was captured and saved, and then it carries that location. Otherwise an error with a non-empty message |
| Sos.RetryAsWritten | src/components/SOSModal.tsx:360-363 | "Try Again" as written gives confirmation and clears the error, leaving the counter as it was |
| Sos.Retry | src/components/SOSModal.tsx:53-57 | "Try Again" with the counter re-armed to 10, as cancel does |
| Sos.Step | src/components/SOSModal.tsx:32-363 | the component's machine, with the written "Try Again": every event keeps the counter within [0, 10], keeps it at 0 once the alert started, keeps data on success and a message on error. A closed modal ignores every control; "Try Again" leaves the counter as it was |
| Sos.StepCorrected | src/components/SOSModal.tsx:53-61 | the same machine with the re-armed "Try Again": it keeps the same invariant, agrees with the component on every other event, and its retry gives confirmation with the counter at 10 |
| Sos.RunPreservesInv | src/components/SOSModal.tsx:32-132 | any sequence of events keeps that invariant |
| Sos.ControlsByScreen | src/components/SOSModal.tsx:144-196 | opening resets and starting keeps the counter. Backdrop and close icon act only on the confirmation screen, and the cancel buttons everywhere except during processing |
| Sos.CountdownTakesItsTime | src/components/SOSModal.tsx:42-51 | n ticks, n at most the counter, lower the counter by exactly n and stay in countdown |
| Sos.RetryAsWrittenSkipsCountdown | src/components/SOSModal.tsx:360-363 | on the error screen the counter is 0, so with the written retry the first tick after starting again sends the alert |
| Sos.RetryWaitsTenTicks | src/components/SOSModal.tsx:53-61 | with the re-armed retry, a restarted alert spends ten ticks in countdown and the eleventh starts processing |
| Reminders.ClockRoundTrip | src/components/MedicineReminders.tsx:98 | every "HH:MM" clock value reads back as its hour and minute |
| Reminders.NextFire | src/components/MedicineReminders.tsx:98-108 | the fire time is strictly after now and at most a day later. It falls at HH:MM local time |
| Reminders.FiringRecursDaily | src/components/MedicineReminders.tsx:110-121 | rescheduling at the moment of firing lands exactly one day later |
| Reminders.ClearHandle | src/components/MedicineReminders.tsx:94-96 | clearing a handle removes exactly the timers with that handle |
| Reminders.ScheduleWith | src/components/MedicineReminders.tsx:92-123 | the table records the new handle for the reminder. The pending timers are then the new one and exactly those of before whose handle is not the one `view` records for the reminder |
| Reminders.Unschedule | src/components/MedicineReminders.tsx:170-177 | the reminder's entry is removed and every other entry is unchanged. Exactly the timer with the handle the entry recorded stops; every other pending timer keeps running |
| Reminders.ScheduleKeepsTracked | src/components/MedicineReminders.tsx:92-123 | scheduling against the current table keeps one timer per reminder and leaves other entries unchanged |
| Reminders.UnscheduleKeepsTracked | src/components/MedicineReminders.tsx:170-177 | deleting keeps the table consistent and leaves no timer for the deleted reminder |
| Reminders.OtherRemindersKeepTheirTimers | src/components/MedicineReminders.tsx:94-96 | with a consistent table, clearing the handle one reminder records never stops another reminder's timer |
| Reminders.AtMostOneTimerPerReminder | src/components/MedicineReminders.tsx:93-96 | with a consistent table, two pending timers of one reminder are the same timer |
| Reminders.ScheduleReminderWith | src/components/MedicineReminders.tsx:89-124 | without either permission, or without a readable time, nothing changes. Otherwise the reminder's entry is a new handle whose timer fires at the next occurrence of its time. The pending timers are the new one and those of before except the one `view` records |
| Reminders.ScheduleReminder | src/components/MedicineReminders.tsx:89-124 | without permission or a readable time nothing changes. Otherwise the new timer is pending and, against a consistent current table, it is this reminder's only timer, every other reminder's timer keeps running, and the table stays consistent |
| Reminders.DeliverAsWritten | src/components/MedicineReminders.tsx:41-53 | after a delivery the table holds exactly the old ids plus those of delivered reminders with a readable time, given permission |
| Reminders.Deliver | src/components/MedicineReminders.tsx:41-53 | with every call seeing the current table, a delivery keeps the table consistent, every reminder it schedules ends with a pending timer, and the timers of reminders it does not schedule keep running |
| Reminders.StaleTableKeepsDeletedReminderFiring | src/components/MedicineReminders.tsx:41-96 | when the listener keeps its first, empty table, two deliveries leave two timers for one reminder. Deleting it then leaves the older timer pending |
| Reminders.DeliveriesThenDeleteLeaveNoTimer | src/components/MedicineReminders.tsx:163-178 | with the current table, after any deliveries, deleting a reminder leaves no timer for it |
| Reminders.SetReminder | src/components/MedicineReminders.tsx:126-161 | refused exactly when signed out, and refused exactly when the name is blank or the time empty. Past those checks, it stops for lack of permission exactly when notifications are not permitted, reports a failure exactly when permitted but the write failed, and saves exactly when both succeed. A saved record has the trimmed name and note, and the name has no white space at either end |
| Reminders.DeleteReminder | src/components/MedicineReminders.tsx:163-185 | signed out, or a failed delete, changes nothing. Otherwise only this reminder's entry goes, and exactly the timer with the handle it recorded stops. When the table is consistent (`Tracked`), no timer of it stays pending and every other reminder's timer keeps running. The listener as written does not keep the table consistent (see Findings) |
| Settings.FontPx | src/contexts/SettingsContext.tsx:29-33 | a pixel size exists exactly for small, medium and large, and it is 14px, 16px and 18px respectively |
| Settings.RestoreLocal | src/contexts/SettingsContext.tsx:45-62 | a stored language or font size is adopted only from the whitelist, and a stored dark mode means dark exactly when it is "true". Anything missing or refused keeps the current value |
| Settings.EmptyStoreKeepsState | src/contexts/SettingsContext.tsx:37-94 | with nothing stored and no cloud values, the state is kept. On first mount that is light mode, medium font and English |
| Settings.Load | src/contexts/SettingsContext.tsx:43-94 | signed out, only local values count. Signed in, each cloud field present overrides the local one and is written back: dark mode when present, font size when non-empty, language only when whitelisted. A field missing or refused keeps the local value and its stored key. Other stored keys are untouched |
| Settings.CloudDarkMode | src/contexts/SettingsContext.tsx:70-74 | a cloud dark mode is adopted and stored as "true" or "false"; without one nothing changes; no other key changes |
| Settings.CloudFontSize | src/contexts/SettingsContext.tsx:75-79 | a non-empty cloud font size is adopted and stored whatever it is; otherwise nothing changes; no other key changes |
| Settings.CloudLanguage | src/contexts/SettingsContext.tsx:80-83 | a cloud language is adopted and stored only when whitelisted; otherwise nothing changes; no other key changes |
| Settings.ToggleDarkMode | src/contexts/SettingsContext.tsx:108-125 | the mode flips and "true" or "false" is stored. The cloud document gets the new mode exactly when signed in and the write succeeds |
| Settings.SetFontSize | src/contexts/SettingsContext.tsx:127-143 | the size is adopted and stored, and merged into the cloud document exactly when signed in and the write succeeds |
| Settings.SetLanguage | src/contexts/SettingsContext.tsx:145-160 | the language is adopted and stored, and merged into the cloud document exactly when signed in and the write succeeds |
| Settings.SettersKeepSynced | src/contexts/SettingsContext.tsx:108-160 | after each setter a reload from storage gives back the same settings |
| Settings.ToggleTwiceRestores | src/contexts/SettingsContext.tsx:108-112 | toggling twice restores the original mode and what a reload reads |
| Settings.LocalLoadIsSynced | src/contexts/SettingsContext.tsx:45-62 | a local load only adopts values a reload would adopt again |
| Settings.CloudCarriesSettings | src/contexts/SettingsContext.tsx:64-84 | values written to the cloud by the setters are what a signed-in load on an empty browser adopts |
| Settings.OddCloudFontSizeIsNotSynced | src/contexts/SettingsContext.tsx:75-79 | a cloud font size outside the three is adopted and stored but has no pixel value, and a reload from storage does not adopt it |
| Settings.SignOutKeepsOddFontSize | src/contexts/SettingsContext.tsx:43-94 | the load that re-runs on sign-out starts from the current state, so such a font size stays in effect |

## Left out

- Network, Express, multer, Firebase Auth, Firestore, Storage, signed URLs, `crypto.randomUUID`, logging and toasts are left out. Their outcomes are parameters: `verify`, `saved`, `deleted`, `writeOk`, `savedId`, `scanId`. Of the `cors` wrapper only the 204 answer to an OPTIONS preflight is modelled; its response headers are not.
- The language model and `JSON.parse` are parameters, so nothing is claimed about what the model answers.
- `Triage.Analyze` models the 500 answer of the outer `catch` only for a `null` first condition. Three other ways to reach it are not modelled, the third in the next line. Non-string symptoms make `toLowerCase` throw, and the model types symptoms as strings. `getGenerativeModel` could throw outside the inner `try`, and the model's oracle is only called inside it.
- `Triage.Analyze`: the parser oracle's type holds an array of condition objects or nulls for `topConditions`, and a string for `riskAssessment`. A non-object entry (a string, number or array) appears as a condition with no confidence. Other JSON shapes are not modelled. That includes an array-like object such as `{"length":1}`, which reaches the 500 answer with "Cannot read properties of undefined", and a string `topConditions`, which the code echoes back with 200.
- `Triage.Analyze` takes confidences as optional reals. JavaScript's coercion of a string or other non-number `confidence` in the `>` comparisons is not modelled.
- `Triage.Analyze` treats `age` as an optional integer. A string or NaN age, and the `{ age, gender }` echo beyond its values, are not modelled.
- `Text.Lower`: only ASCII letters are lower-cased. JavaScript's full Unicode case mapping is not modelled, and the keyword lists are ASCII.
- `Text.ParseInt`: the `0x` prefix that `parseInt` without a radix reads as hexadecimal is not modelled, and neither is the `-0` result.
- `Text.ParseInt` returns the exact integer. JavaScript's `parseInt` returns a double, so a digit run above 2^53 is rounded there: "9007199254740993" reads as 9007199254740992. `Text.ParseIntShow` holds for JavaScript only up to 2^53.
- `Family.AddMember` compares names with the ASCII `Text.Lower`, not Unicode `toLowerCase`.
- `Family.AddReminder` takes the parsed date as `time`, with `None` for an invalid date. The date-string parsing of `new Date` is not modelled.
- `Chat.LanguageName`: inherited object keys such as "toString" are looked up on the prototype in JavaScript and yield a function. The model maps them to English.
- `Upload.Sanitize` works per character. The regex works per UTF-16 code unit, so a character outside the Basic Multilingual Plane becomes two underscores there and one here.
- `MedicineCheck.Verify` leaves out the `metadata` block (file size in KB, time stamp, version) and the 500 answer for a failing read.
- `Sos`: geolocation, the maps link, coordinates formatting and the time stamp are left out. A location is a pair of reals and capture is a `LocationResult`. The one-second timer is the `Tick` event.
- `Reminders.ScheduleReminderWith`: only "HH:MM" times are scheduled, because the form's `type="time"` input (src/components/MedicineReminders.tsx:222) produces that shape. The code's `split(":").map(Number)` accepts more: "8:30" and "08:30:00" both give 08:30. A part that is not a number gives a NaN delay, and then the timer fires at once.
- `Reminders.NextFire` works in local milliseconds with 24-hour days: daylight-saving changes are not modelled.
- `Reminders`: the browser `Notification` object and the permission request are left out. Permission is two booleans: the component's flag and the browser's state.
- `Reminders`: the clean-up of timers on unmount is left out.
- `Settings`: the `loading` flag and the DOM effects `applyTheme` and `applyFontSize` are not modelled.
- `server/app.py` is not part of this model. It uses floating-point scores from a classifier library.

## Findings

| source | as written | input that shows it | evidently intended | confidence | as-written member | corrected member |
|---|---|---|---|---|---|---|
| src/components/SOSModal.tsx:360-363 | "Try Again" sets the screen back to confirmation and clears the error, but leaves the countdown as it is. An error only follows a finished countdown, so the counter is 0 | start the alert, let location capture fail, press "Try Again", press "Start Emergency Alert": the next tick sends the alert with no countdown | re-arm the counter to 10, as cancelling does | medium, not executed | Sos.RetryAsWritten, Sos.Step, Sos.RetryAsWrittenSkipsCountdown | Sos.Retry, Sos.StepCorrected, Sos.RetryWaitsTenTicks |
| src/components/MedicineReminders.tsx:41-96 | the snapshot listener is set up once per user, and its closure keeps the `scheduledTimeouts` table of that render, which is empty. So `scheduleNotification` never finds an earlier timer to clear | one reminder delivered by two snapshots (for example, after another reminder is added), then deleted: two timers were started, and deleting clears only the newer one, so the deleted reminder still fires every day | clear the reminder's current timer before starting a new one, reading the latest table | medium, not executed | Reminders.DeliverAsWritten, Reminders.StaleTableKeepsDeletedReminderFiring | Reminders.Deliver, Reminders.DeliveriesThenDeleteLeaveNoTimer |

=== FILE: chat.dfy ===
/** The `/chat` handler: message check, language-code lookup, the safety prompt and the
    single model call (an oracle of the prompt). */
module Chat {
  import opened Wrappers
  import opened Text
  import Triage

  datatype ChatBody = ChatError(error: string) | ChatReply(reply: string)

  datatype ChatResponse = ChatResponse(status: int, body: ChatBody)

  const Unavailable: string := "AI service temporarily unavailable."

  /** `languageMap[language] || 'English'` over the three listed codes. */
  function LanguageName(language: Option<string>): (name: string)
    ensures name == "English" || name == "Hindi" || name == "Marathi"
    ensures name == "Hindi" <==> language == Some("hi")
    ensures name == "Marathi" <==> language == Some("mr")
  {
    match language
    case Some("en") => "English"
    case Some("hi") => "Hindi"
    case Some("mr") => "Marathi"
    case _ => "English"
  }

  const PromptHead: string := "You are a healthcare assistant.\n\nRespond strictly in "
  const PromptRules: string :=
    ".\nUse simple, clear language appropriate for the user's language.\nDo not diagnose or prescribe medication.\nIf symptoms indicate emergency, suggest using the SOS feature.\n\nUser: "

  function Prompt(language: string, message: string): string {
    PromptHead + language + PromptRules + message
  }

  /** The handler: an empty or missing message is refused before the model is asked; a
      throwing model gives the canned apology with status 500. */
  function Respond(message: Option<string>, language: Option<string>, model: string -> Triage.OracleReply): (r: ChatResponse)
    ensures r.status == 400 <==> !Triage.Truthy(message)
    ensures r.status == 400 ==> r.body == ChatError("Message required")
    ensures r.status == 200 <==>
      Triage.Truthy(message) && model(Prompt(LanguageName(language), message.value)).Replied?
    ensures r.status == 200 ==> r.body == ChatReply(model(Prompt(LanguageName(language), message.value)).text)
    ensures r.status == 500 ==> r.body == ChatReply(Unavailable)
    ensures r.status == 200 || r.status == 400 || r.status == 500
  {
    if !Triage.Truthy(message) then
      ChatResponse(400, ChatError("Message required"))
    else
      match model(Prompt(LanguageName(language), message.value))
      case Threw => ChatResponse(500, ChatReply(Unavailable))
      case Replied(text) => ChatResponse(200, ChatReply(text))
  }

  /** The refusal of an empty message does not depend on the model: it is never asked. */
  lemma RefusalIgnoresModel(message: Option<string>, language: Option<string>,
                            m1: string -> Triage.OracleReply, m2: string -> Triage.OracleReply)
    requires !Triage.Truthy(message)
    ensures Respond(message, language, m1) == Respond(message, language, m2)
  {
  }

  /** The model is asked exactly one prompt, and that prompt holds the language name and the
      message: two models that answer it alike give the same response. */
  lemma ModelSeesLanguageAndMessage(message: string, language: Option<string>,
                                    m1: string -> Triage.OracleReply, m2: string -> Triage.OracleReply)
    requires message != ""
    ensures var p := Prompt(LanguageName(language), message);
      && Occurs(p, LanguageName(language)) && Occurs(p, message)
      && (m1(p) == m2(p) ==> Respond(Some(message), language, m1) == Respond(Some(message), language, m2))
  {
    var p := Prompt(LanguageName(language), message);
    assert OccursAt(p, LanguageName(language), |PromptHead|) by {
      assert p == PromptHead + LanguageName(language) + (PromptRules + message);
      assert p[|PromptHead|..|PromptHead| + |LanguageName(language)|] == LanguageName(language);
    }
    assert OccursAt(p, message, |p| - |message|);
  }

  /** The prompt states the chosen language and ends with the user's message verbatim. */
  lemma PromptCarriesLanguageAndMessage(language: Option<string>, message: string)
    ensures var p := Prompt(LanguageName(language), message);
      && StartsWith(p, PromptHead + LanguageName(language))
      && p[|p| - |message|..] == message
  {
    var p := Prompt(LanguageName(language), message);
    assert p == (PromptHead + LanguageName(language)) + (PromptRules + message);
  }

  /** The three codes the settings accept name three different languages; every other code,
      and a missing one, falls back to English. */
  lemma KnownCodesAreDistinct(code: string)
    ensures LanguageName(Some("en")) == "English"
    ensures LanguageName(Some("hi")) != LanguageName(Some("mr"))
    ensures LanguageName(Some("en")) != LanguageName(Some("hi"))
    ensures LanguageName(Some("en")) != LanguageName(Some("mr"))
    ensures code != "hi" && code != "mr" ==> LanguageName(Some(code)) == "English"
    ensures LanguageName(None) == "English"
  {
  }
}

=== FILE: family.dfy ===
/** The family-member and reminder rules of the profile page: `handleAddMember` (checks in
    the order authentication, capacity, missing fields, duplicate name), `handleDeleteMember`
    and `handleAddReminder`. */
module Family {
  import opened Wrappers
  import opened Text
  import Triage

  /** A family member; `age` is `parseInt` of the form field, `None` standing for NaN. */
  datatype Member = Member(id: string, name: string, age: Option<int>, relation: string)

  datatype MemberForm = MemberForm(name: string, age: string, relation: string)

  datatype AddError = NotAuthenticated | TooManyMembers | MissingInformation | DuplicateName | SaveFailed

  datatype AddResult = Added(members: seq<Member>) | Rejected(reason: AddError)

  const MaxMembers: int := 4

  /** `a.toLowerCase() === b.toLowerCase()`. */
  predicate SameName(a: string, b: string) {
    Lower(a) == Lower(b)
  }

  predicate NameTaken(members: seq<Member>, name: string) {
    exists i :: 0 <= i < |members| && SameName(members[i].name, name)
  }

  /** Adds the member the form describes. `uid` is the signed-in user (`None` when signed
      out) and `savedId` the id of the stored document, `None` when the write failed. */
  function AddMember(uid: Option<string>, members: seq<Member>, form: MemberForm, savedId: Option<string>): (r: AddResult)
    ensures r == Rejected(NotAuthenticated) <==> !Triage.Truthy(uid)
    ensures r == Rejected(TooManyMembers) <==> Triage.Truthy(uid) && |members| >= MaxMembers
    ensures r == Rejected(MissingInformation) <==>
      Triage.Truthy(uid) && |members| < MaxMembers && (form.name == "" || form.age == "" || form.relation == "")
    ensures r == Rejected(DuplicateName) <==>
      && Triage.Truthy(uid) && |members| < MaxMembers
      && form.name != "" && form.age != "" && form.relation != ""
      && NameTaken(members, form.name)
    ensures r.Added? <==>
      && Triage.Truthy(uid) && |members| < MaxMembers
      && form.name != "" && form.age != "" && form.relation != ""
      && !NameTaken(members, form.name) && savedId.Some?
    ensures r.Added? ==>
      && |r.members| == |members| + 1 <= MaxMembers
      && r.members[..|members|] == members
      && r.members[|members|] == Member(savedId.value, form.name, ParseInt(form.age), form.relation)
  {
    if !Triage.Truthy(uid) then Rejected(NotAuthenticated)
    else if |members| >= MaxMembers then Rejected(TooManyMembers)
    else if form.name == "" || form.age == "" || form.relation == "" then Rejected(MissingInformation)
    else if NameTaken(members, form.name) then Rejected(DuplicateName)
    else if savedId.None? then Rejected(SaveFailed)
    else Added(members + [Member(savedId.value, form.name, ParseInt(form.age), form.relation)])
  }

  /** No two members share a name up to ASCII case. */
  ghost predicate DistinctNames(members: seq<Member>) {
    forall i, j :: 0 <= i < j < |members| ==> !SameName(members[i].name, members[j].name)
  }

  /** Adding keeps the list within four members and keeps names distinct. */
  lemma AddKeepsListWellFormed(uid: Option<string>, members: seq<Member>, form: MemberForm, savedId: Option<string>)
    requires |members| <= MaxMembers && DistinctNames(members)
    ensures var r := AddMember(uid, members, form, savedId);
      r.Added? ==> |r.members| <= MaxMembers && DistinctNames(r.members)
  {
    var r := AddMember(uid, members, form, savedId);
    if r.Added? {
      forall i, j | 0 <= i < j < |r.members| ensures !SameName(r.members[i].name, r.members[j].name) {
        if j == |members| {
          assert r.members[i] == members[i];
          assert !SameName(members[i].name, form.name);
        } else {
          assert r.members[i] == members[i] && r.members[j] == members[j];
        }
      }
    }
  }

  /** `members.filter((m) => m.id !== memberId)`. */
  function RemoveId(members: seq<Member>, id: string): (r: seq<Member>)
    ensures |r| <= |members|
    ensures forall m :: m in r <==> m in members && m.id != id
  {
    if |members| == 0 then []
    else if members[0].id != id then [members[0]] + RemoveId(members[1..], id)
    else RemoveId(members[1..], id)
  }

  /** The filter works piecewise, so the members that stay keep their relative order. */
  lemma {:induction false} RemoveIdKeepsOrder(a: seq<Member>, b: seq<Member>, id: string)
    ensures RemoveId(a + b, id) == RemoveId(a, id) + RemoveId(b, id)
    decreases |a|
  {
    if |a| == 0 {
      assert a + b == b;
    } else {
      assert (a + b)[1..] == a[1..] + b;
      RemoveIdKeepsOrder(a[1..], b, id);
    }
  }

  /** `handleDeleteMember`: signed out, or the document delete failing, leaves the list as
      it was. */
  function DeleteMember(uid: Option<string>, members: seq<Member>, id: string, deleted: bool): (r: seq<Member>)
    ensures !Triage.Truthy(uid) || !deleted ==> r == members
    ensures Triage.Truthy(uid) && deleted ==> forall m :: m in r <==> m in members && m.id != id
  {
    if !Triage.Truthy(uid) || !deleted then members else RemoveId(members, id)
  }

  lemma {:induction false} RemoveAbsentId(members: seq<Member>, id: string)
    requires forall i :: 0 <= i < |members| ==> members[i].id != id
    ensures RemoveId(members, id) == members
    decreases |members|
  {
    if |members| > 0 {
      RemoveAbsentId(members[1..], id);
    }
  }

  /** Deleting the member just added restores the list, when its id was new. */
  lemma DeleteUndoesAdd(uid: Option<string>, members: seq<Member>, form: MemberForm, savedId: Option<string>)
    requires savedId.Some? && forall i :: 0 <= i < |members| ==> members[i].id != savedId.value
    requires AddMember(uid, members, form, savedId).Added?
    ensures DeleteMember(uid, AddMember(uid, members, form, savedId).members, savedId.value, true) == members
  {
    var added := Member(savedId.value, form.name, ParseInt(form.age), form.relation);
    RemoveIdKeepsOrder(members, [added], savedId.value);
    RemoveAbsentId(members, savedId.value);
    assert RemoveId([added], savedId.value) == [];
  }

  // ---------------------------------------------------------------------------
  // Reminders for members
  // ---------------------------------------------------------------------------

  /** `members.find((m) => m.id === id)`. */
  function FindMember(members: seq<Member>, id: string): (r: Option<Member>)
    ensures r.Some? ==> r.value in members && r.value.id == id
    ensures r.Some? ==>
      exists i :: 0 <= i < |members| && members[i] == r.value && forall j :: 0 <= j < i ==> members[j].id != id
    ensures r.None? <==> forall i :: 0 <= i < |members| ==> members[i].id != id
  {
    if |members| == 0 then None
    else if members[0].id == id then Some(members[0])
    else FindMember(members[1..], id)
  }

  datatype ReminderRecord = ReminderRecord(memberId: string, memberName: string, message: string, time: int)

  datatype ReminderError = ReminderNotAuthenticated | ReminderMissingInformation | InvalidTime | ReminderSaveFailed

  /** `Ignored` is the silent return when the selected id names no member. */
  datatype ReminderResult = Created(record: ReminderRecord) | ReminderRejected(reason: ReminderError) | Ignored

  /** `handleAddReminder`. `time` is `new Date(datetime).getTime()` in milliseconds (`None` for
      an invalid date, NaN in the source), `now` is `Date.now()`, `saved` whether the write
      succeeded. An invalid date passes the `<=` test, as NaN compares false, and then makes
      the write throw. */
  function AddReminder(uid: Option<string>, members: seq<Member>, memberId: string, message: string,
                       datetime: string, time: Option<int>, now: int, saved: bool): (r: ReminderResult)
    ensures r == ReminderRejected(ReminderNotAuthenticated) <==> !Triage.Truthy(uid)
    ensures r == ReminderRejected(ReminderMissingInformation) <==>
      Triage.Truthy(uid) && (memberId == "" || message == "" || datetime == "")
    ensures r == Ignored <==>
      && Triage.Truthy(uid) && memberId != "" && message != "" && datetime != ""
      && forall i :: 0 <= i < |members| ==> members[i].id != memberId
    ensures r == ReminderRejected(InvalidTime) <==>
      && Triage.Truthy(uid) && memberId != "" && message != "" && datetime != ""
      && FindMember(members, memberId).Some? && time.Some? && time.value <= now
    ensures r == ReminderRejected(ReminderSaveFailed) <==>
      && Triage.Truthy(uid) && memberId != "" && message != "" && datetime != ""
      && FindMember(members, memberId).Some? && (time.None? || (time.value > now && !saved))
    ensures r.Created? <==>
      && Triage.Truthy(uid) && memberId != "" && message != "" && datetime != ""
      && FindMember(members, memberId).Some? && time.Some? && time.value > now && saved
    ensures r.Created? ==> r.record.memberName == FindMember(members, memberId).value.name
    ensures r.Created? ==>
      && time == Some(r.record.time) && r.record.time > now && saved
      && r.record.memberId == memberId && r.record.message == message
      && exists i :: 0 <= i < |members| && members[i].id == memberId && members[i].name == r.record.memberName
  {
    if !Triage.Truthy(uid) then ReminderRejected(ReminderNotAuthenticated)
    else if memberId == "" || message == "" || datetime == "" then ReminderRejected(ReminderMissingInformation)
    else
      match FindMember(members, memberId)
      case None => Ignored
      case Some(member) =>
        if time.Some? && time.value <= now then ReminderRejected(InvalidTime)
        else if time.None? || !saved then ReminderRejected(ReminderSaveFailed)
        else Created(ReminderRecord(memberId, member.name, message, time.value))
  }

  /** A reminder in the past or at this very moment is refused for every known member. */
  lemma PastReminderIsRefused(uid: Option<string>, members: seq<Member>, i: int, message: string,
                              datetime: string, t: int, now: int, saved: bool)
    requires Triage.Truthy(uid) && 0 <= i < |members| && members[i].id != ""
    requires message != "" && datetime != "" && t <= now
    ensures AddReminder(uid, members, members[i].id, message, datetime, Some(t), now, saved) ==
      ReminderRejected(InvalidTime)
  {
    assert FindMember(members, members[i].id).Some?;
  }
}

=== FILE: json_span.dfy ===
/** The JSON extraction step of the triage handler: `responseText.match(/\{[^{}]*\}/)`,
    which picks the leftmost brace-delimited span holding no brace inside it. */
module JsonSpan {
  import opened Wrappers

  predicate IsBrace(c: char) {
    c == '{' || c == '}'
  }

  /** `text[i..j + 1]` is a match of `\{[^{}]*\}`. */
  ghost predicate IsSpan(text: string, i: int, j: int) {
    && 0 <= i < j < |text|
    && text[i] == '{' && text[j] == '}'
    && forall k :: i < k < j ==> !IsBrace(text[k])
  }

  /** The match the regular expression reports: the one that starts leftmost. */
  ghost predicate IsFirstSpan(text: string, i: int, j: int) {
    IsSpan(text, i, j) && forall i', j' :: IsSpan(text, i', j') ==> i <= i'
  }

  /** What a left-to-right scan knows at position `p`: no match has ended before `p`, and
      `open` is the last `{` before `p` when no brace follows it, `None` when every `{`
      before `p` is followed by a brace before `p`. */
  ghost predicate ScanInv(text: string, p: nat, open: Option<nat>) {
    && p <= |text|
    && (forall i, j :: IsSpan(text, i, j) ==> p <= j)
    && match open
       case Some(i) => i < p && text[i] == '{' && forall k :: i < k < p ==> !IsBrace(text[k])
       case None => forall i :: 0 <= i < p && text[i] == '{' ==> exists k :: i < k < p && IsBrace(text[k])
  }

  /** One pass over the text, remembering the most recent unclosed `{`. */
  function Scan(text: string, p: nat, open: Option<nat>): (r: Option<(nat, nat)>)
    requires ScanInv(text, p, open)
    ensures r.Some? ==> IsFirstSpan(text, r.value.0, r.value.1)
    ensures r.None? ==> forall i, j :: !IsSpan(text, i, j)
    decreases |text| - p
  {
    if p == |text| then
      None
    else if text[p] == '{' then
      Scan(text, p + 1, Some(p))
    else if text[p] == '}' then
      match open
      case Some(i) =>
        assert IsSpan(text, i, p);
        Some((i, p))
      case None =>
        assert forall i :: 0 <= i < p + 1 && text[i] == '{' ==> exists k :: i < k < p + 1 && IsBrace(text[k]);
        Scan(text, p + 1, None)
    else
      assert forall i, j :: IsSpan(text, i, j) ==> p + 1 <= j;
      Scan(text, p + 1, open)
  }

  /** The matched span, or `None` when the text holds no brace-free `{…}`. */
  function Extract(text: string): (r: Option<string>)
    ensures r.Some? ==> exists i, j :: IsFirstSpan(text, i, j) && r.value == text[i..j + 1]
    ensures r.None? <==> forall i, j :: !IsSpan(text, i, j)
  {
    match Scan(text, 0, None)
    case Some((i, j)) => Some(text[i..j + 1])
    case None => None
  }

  /** There is at most one leftmost match. */
  lemma FirstSpanIsUnique(text: string, i: int, j: int, i': int, j': int)
    requires IsFirstSpan(text, i, j) && IsFirstSpan(text, i', j')
    ensures i == i' && j == j'
  {
    assert i == i';
  }

  ghost predicate BraceFree(s: string) {
    forall k :: 0 <= k < |s| ==> !IsBrace(s[k])
  }

  /** A `{…}` text with no brace between its delimiters. */
  ghost predicate IsFlatObject(s: string) {
    |s| >= 2 && s[0] == '{' && s[|s| - 1] == '}' && BraceFree(s[1..|s| - 1])
  }

  /** Whatever the reply, the extracted text is such a flat object, so no object can be
      nested in what the parser receives. */
  lemma ExtractIsFlat(text: string)
    ensures Extract(text).Some? ==> IsFlatObject(Extract(text).value)
  {
    if Extract(text).Some? {
      var o := Extract(text).value;
      var i, j :| IsFirstSpan(text, i, j) && o == text[i..j + 1];
      var inner := o[1..|o| - 1];
      assert |o| == j - i + 1;
      assert forall k :: 0 <= k < |inner| ==> inner[k] == text[i + 1 + k];
    }
  }

  /** The reply shape the triage prompt asks for nests the condition objects inside the
      outer object; the extraction then returns the first inner object, never the outer
      one that carries `topConditions` and `riskAssessment`. */
  lemma NestedReplyYieldsInnerObject(pre: string, mid: string, inner: string, post: string)
    requires BraceFree(pre) && BraceFree(mid) && BraceFree(inner)
    ensures Extract(pre + "{" + mid + "{" + inner + "}" + post) == Some("{" + inner + "}")
  {
    var head := pre + "{" + mid;
    var obj := "{" + inner + "}";
    var text := head + obj + post;
    assert text == pre + "{" + mid + "{" + inner + "}" + post;
    NestedSpanIsFirst(pre, mid, inner, post);
    var r := Extract(text);
    var i, j :| IsFirstSpan(text, i, j) && r.value == text[i..j + 1];
    FirstSpanIsUnique(text, i, j, |head|, |head| + 1 + |inner|);
    MiddleSlice(head, obj, post);
  }

  /** In the nested shape the leftmost match is the inner object. */
  lemma NestedSpanIsFirst(pre: string, mid: string, inner: string, post: string)
    requires BraceFree(pre) && BraceFree(mid) && BraceFree(inner)
    ensures var b := |pre| + 1 + |mid|;
      IsFirstSpan(pre + "{" + mid + "{" + inner + "}" + post, b, b + 1 + |inner|)
  {
    var text := pre + "{" + mid + "{" + inner + "}" + post;
    var a := |pre|;
    var b := a + 1 + |mid|;
    var c := b + 1 + |inner|;
    assert forall k :: 0 <= k < a ==> text[k] == pre[k];
    assert text[a] == '{';
    assert forall k :: a < k < b ==> text[k] == mid[k - a - 1];
    assert text[b] == '{';
    assert forall k :: b < k < c ==> text[k] == inner[k - b - 1];
    assert text[c] == '}';
    assert IsSpan(text, b, c);
  }

  /** A flat object after brace-free text is extracted whole, whatever follows it. */
  lemma FlatReplyYieldsItself(pre: string, body: string, post: string)
    requires BraceFree(pre) && BraceFree(body)
    ensures Extract(pre + "{" + body + "}" + post) == Some("{" + body + "}")
  {
    var obj := "{" + body + "}";
    var text := pre + obj + post;
    assert text == pre + "{" + body + "}" + post;
    FlatSpanIsFirst(pre, body, post);
    var r := Extract(text);
    var i, j :| IsFirstSpan(text, i, j) && r.value == text[i..j + 1];
    FirstSpanIsUnique(text, i, j, |pre|, |pre| + 1 + |body|);
    MiddleSlice(pre, obj, post);
  }

  /** The object after brace-free text is the leftmost match. */
  lemma FlatSpanIsFirst(pre: string, body: string, post: string)
    requires BraceFree(pre) && BraceFree(body)
    ensures IsFirstSpan(pre + "{" + body + "}" + post, |pre|, |pre| + 1 + |body|)
  {
    var text := pre + "{" + body + "}" + post;
    var a := |pre|;
    var c := a + 1 + |body|;
    assert forall k :: 0 <= k < a ==> text[k] == pre[k];
    assert text[a] == '{';
    assert forall k :: a < k < c ==> text[k] == body[k - a - 1];
    assert text[c] == '}';
    assert IsSpan(text, a, c);
  }

  lemma MiddleSlice(x: string, y: string, z: string)
    ensures (x + y + z)[|x|..|x| + |y|] == y
  {
  }
}

=== FILE: keywords.dfy ===
/** The rule-based flag scanners of the triage service (`checkRedFlags`,
    `checkYellowFlags`): two fixed, ordered keyword lists and a first-match scan over the
    lower-cased symptom text. */
module Keywords {
  import opened Wrappers
  import opened Text

  /** Immediate emergencies: a hit returns Red without consulting the language model. */
  const RedKeywords: seq<string> := [
    "chest pain",
    "difficulty breathing",
    "shortness of breath",
    "breathlessness",
    "unable to breathe",
    "unconscious",
    "unresponsive",
    "seizure",
    "convulsion",
    "fitting",
    "severe bleeding",
    "bleeding heavily",
    "hemorrhage",
    "confusion",
    "disorientation",
    "blue lips",
    "cyanosis",
    "loss of consciousness",
    "fainting",
    "syncope",
    "severe chest tightness",
    "heart attack",
    "cardiac",
    "stroke",
    "sudden paralysis",
    "poison",
    "overdose",
    "severe allergic reaction",
    "anaphylaxis"
  ]

  /** Moderate concern: a hit sets the risk floor to Yellow. */
  const YellowKeywords: seq<string> := [
    "high fever",
    "persistent fever",
    "fever for",
    "sustained fever",
    "vomiting",
    "severe headache",
    "unbearable headache",
    "stiff neck",
    "neck stiffness",
    "blood in stool",
    "bloody stool",
    "hematemesis",
    "blood in vomit",
    "coughing blood",
    "hemoptysis",
    "prolonged cough",
    "persistent cough",
    "extreme fatigue",
    "severe weakness",
    "night sweats",
    "sweating at night",
    "jaundice",
    "yellow skin",
    "yellow eyes",
    "severe abdominal pain",
    "acute abdomen",
    "severe diarrhea",
    "dysentery",
    "severe dehydration",
    "unable to drink",
    "altered mental status",
    "severe dizziness",
    "severe joint pain",
    "severe muscle pain",
    "rigidity",
    "meningeal signs"
  ]

  /** `list[k]` occurs in `lower` and no keyword before it does. */
  ghost predicate IsFirstHit(lower: string, list: seq<string>, k: int) {
    && 0 <= k < |list|
    && Occurs(lower, list[k])
    && forall j :: 0 <= j < k ==> !Occurs(lower, list[j])
  }

  /** The `for … of` loop of the scanners, resumed at position `start`. */
  function FirstFrom(lower: string, list: seq<string>, start: nat): (r: Option<nat>)
    requires start <= |list|
    requires forall j :: 0 <= j < start ==> !Occurs(lower, list[j])
    ensures r.Some? ==> IsFirstHit(lower, list, r.value)
    ensures r.None? ==> forall k :: 0 <= k < |list| ==> !Occurs(lower, list[k])
    decreases |list| - start
  {
    if start == |list| then None
    else if Includes(lower, list[start]) then Some(start)
    else FirstFrom(lower, list, start + 1)
  }

  /** Lower-cases the text once and returns the first keyword of `list`, in list order,
      that occurs in it; `None` plays the part of `null`. */
  function FirstMatch(text: string, list: seq<string>): (r: Option<string>)
    ensures r.Some? ==> exists k :: IsFirstHit(Lower(text), list, k) && list[k] == r.value
    ensures r.None? <==> forall k :: 0 <= k < |list| ==> !Occurs(Lower(text), list[k])
  {
    match FirstFrom(Lower(text), list, 0)
    case Some(k) => Some(list[k])
    case None => None
  }

  function CheckRedFlags(symptoms: string): Option<string> {
    FirstMatch(symptoms, RedKeywords)
  }

  function CheckYellowFlags(symptoms: string): Option<string> {
    FirstMatch(symptoms, YellowKeywords)
  }

  /** A hit is a keyword of the list and a substring of the lower-cased text; and whenever
      keyword `i` occurs, the reported keyword sits at position `i` or earlier, so a later
      (possibly more specific) keyword never wins over an earlier one. */
  lemma FirstMatchIsEarliest(text: string, list: seq<string>, i: int)
    requires 0 <= i < |list| && Occurs(Lower(text), list[i])
    ensures FirstMatch(text, list).Some?
    ensures FirstMatch(text, list).value in list
    ensures Occurs(Lower(text), FirstMatch(text, list).value)
    ensures exists k :: 0 <= k <= i && list[k] == FirstMatch(text, list).value
  {
    var r := FirstMatch(text, list);
    var k :| IsFirstHit(Lower(text), list, k) && list[k] == r.value;
  }

  /** Texts that agree up to ASCII case get the same answer from both scanners. */
  lemma ScanIgnoresCase(a: string, b: string)
    requires Lower(a) == Lower(b)
    ensures CheckRedFlags(a) == CheckRedFlags(b)
    ensures CheckYellowFlags(a) == CheckYellowFlags(b)
  {
  }

  /** A red keyword written in any ASCII casing anywhere in the text raises a red flag. */
  lemma RedKeywordInAnyCase(text: string, i: nat, k: int)
    requires 0 <= k < |RedKeywords|
    requires i + |RedKeywords[k]| <= |text|
    requires Lower(text[i..i + |RedKeywords[k]|]) == RedKeywords[k]
    ensures Occurs(Lower(text), RedKeywords[k])
    ensures CheckRedFlags(text).Some?
  {
    assert Lower(text)[i..i + |RedKeywords[k]|] == Lower(text[i..i + |RedKeywords[k]|]);
    assert OccursAt(Lower(text), RedKeywords[k], i);
    FirstMatchIsEarliest(text, RedKeywords, k);
  }

  /** "I have Chest Pain and sweating" raises the red flag "chest pain". */
  lemma ChestPainIsRed()
    ensures CheckRedFlags("I have " + "Chest Pain" + " and sweating") == Some("chest pain")
  {
    var text := "I have " + "Chest Pain" + " and sweating";
    assert text[7..17] == "Chest Pain";
    assert Lower("Chest Pain") == "chest pain";
    RedKeywordInAnyCase(text, 7, 0);
    FirstMatchIsEarliest(text, RedKeywords, 0);
  }
}

=== FILE: medicine_check.dfy ===
/** The `/verify-medicine` handler: a byte-sum "hash" of the uploaded image mapped to a
    confidence in [55, 88] and to one of three risk bands with canned guidance. */
module MedicineCheck {
  import opened Wrappers

  type Byte = x: int | 0 <= x < 256

  datatype Band = High | Moderate | Low

  datatype VerifyResponse =
    | NoImage
    | Verdict(confidence: int, riskLevel: Band, message: string)

  /** The sum of all byte values, added left to right. */
  function Sum(bytes: seq<Byte>): nat {
    if |bytes| == 0 then 0 else Sum(bytes[..|bytes| - 1]) + bytes[|bytes| - 1]
  }

  /** `55 + ((Σ bytes % 10000) % 34)`. */
  function Confidence(bytes: seq<Byte>): (c: int)
    ensures 55 <= c <= 88
  {
    55 + (Sum(bytes) % 10000) % 34
  }

  /** Below 65 is High risk, 65 to 75 inclusive Moderate, above 75 Low. */
  function BandOf(confidence: int): Band {
    if confidence < 65 then High
    else if 65 <= confidence <= 75 then Moderate
    else Low
  }

  const HighMessage: string :=
    "\U{26A0}\U{FE0F} High Risk Detected\n\n"
    + "\U{2022} Minor packaging inconsistencies detected\n"
    + "\U{2022} Label print clarity variation observed\n"
    + "\U{2022} Alignment irregularity noted\n"
    + "\U{2022} Hologram authenticity uncertain\n\n"
    + "\U{26A1} Action Required: Please consult a licensed pharmacist or contact the manufacturer directly for verification."

  const ModerateMessage: string :=
    "\U{26A1} Moderate Risk - Manual Verification Recommended\n\n"
    + "\U{2022} Packaging structure largely consistent\n"
    + "\U{2022} Slight contrast variation detected in labeling\n"
    + "\U{2022} Color saturation within acceptable range\n"
    + "\U{2022} Minor discrepancies in font rendering\n\n"
    + "\U{1F4A1} Recommendation: Compare with a known authentic sample or verify batch number with manufacturer."

  const LowMessage: string :=
    "\U{2705} Low Risk - Appears Authentic\n\n"
    + "\U{2022} Packaging structure consistent with standards\n"
    + "\U{2022} Label alignment within normal parameters\n"
    + "\U{2022} No major visual discrepancies detected\n"
    + "\U{2022} Print quality meets expected criteria\n\n"
    + "\U{1F4CB} Note: This analysis is based on visual assessment. For complete assurance, verify batch details with the official manufacturer database."

  function MessageOf(band: Band): string {
    match band
    case High => HighMessage
    case Moderate => ModerateMessage
    case Low => LowMessage
  }

  /** The handler: no upload gives the 400 answer; otherwise the loop sums the bytes and the
      verdict follows from the sum. */
  method Verify(image: Option<seq<Byte>>) returns (r: VerifyResponse)
    ensures image.None? <==> r.NoImage?
    ensures image.Some? ==>
      && r.confidence == Confidence(image.value)
      && r.riskLevel == BandOf(r.confidence)
      && r.message == MessageOf(r.riskLevel)
  {
    if image.None? {
      return NoImage;
    }
    var buffer := image.value;
    var hash: nat := 0;
    var i := 0;
    while i < |buffer|
      invariant 0 <= i <= |buffer|
      invariant hash == Sum(buffer[..i])
    {
      assert buffer[..i + 1][..i] == buffer[..i];
      hash := hash + buffer[i];
      i := i + 1;
    }
    assert buffer[..i] == buffer;
    hash := hash % 10000;
    var confidence := 55 + (hash % 34);
    var band := BandOf(confidence);
    r := Verdict(confidence, band, MessageOf(band));
  }

  lemma {:induction false} SumAppend(a: seq<Byte>, b: seq<Byte>)
    ensures Sum(a + b) == Sum(a) + Sum(b)
    decreases |b|
  {
    if |b| > 0 {
      assert (a + b)[..|a + b| - 1] == a + b[..|b| - 1];
      SumAppend(a, b[..|b| - 1]);
    } else {
      assert a + b == a;
    }
  }

  /** The score ignores where bytes sit: swapping two chunks of the image leaves it unchanged. */
  lemma ScoreIgnoresOrder(a: seq<Byte>, b: seq<Byte>)
    ensures Confidence(a + b) == Confidence(b + a)
  {
    SumAppend(a, b);
    SumAppend(b, a);
  }

  /** The range [55, 88] is tight: every value in it is the score of a one-byte image. */
  lemma EveryScoreOccurs(c: int)
    requires 55 <= c <= 88
    ensures Confidence([c - 55]) == c
  {
    var one: seq<Byte> := [c - 55];
    assert one[..0] == [];
    assert Sum(one) == Sum(one[..0]) + one[0];
  }

  /** The bands partition the range in order: a higher confidence never means a higher risk,
      and each band is reached by some image. */
  lemma BandsAreOrdered(c1: int, c2: int)
    requires 55 <= c1 <= c2 <= 88
    ensures BandOf(c1) == Low ==> BandOf(c2) == Low
    ensures BandOf(c2) == High ==> BandOf(c1) == High
    ensures BandOf(Confidence([])) == High
    ensures BandOf(Confidence([10])) == Moderate
    ensures BandOf(Confidence([21])) == Low
  {
    EveryScoreOccurs(65);
    EveryScoreOccurs(76);
    assert Sum([]) == 0;
  }
}

=== FILE: reminders.dfy ===
/** Daily medicine reminders: the "HH:MM" time value, the next-fire rule of
    `scheduleNotification`, the per-reminder timer table, `handleSetReminder` and
    `handleDeleteReminder`. Times are local wall-clock milliseconds. */
module Reminders {
  import opened Wrappers
  import opened Text
  import Triage

  const MinuteMs: int := 60000
  const HourMs: int := 3600000
  const DayMs: int := 86400000

  // ---------------------------------------------------------------------------
  // Clock values and the next firing time
  // ---------------------------------------------------------------------------

  /** `time.split(":").map(Number)` for the "HH:MM" value a time input produces. */
  function ParseClock(s: string): Option<(nat, nat)> {
    if |s| == 5 && IsDigit(s[0]) && IsDigit(s[1]) && s[2] == ':' && IsDigit(s[3]) && IsDigit(s[4]) then
      Some((DigitsValue(s[0..2]), DigitsValue(s[3..5])))
    else None
  }

  function FormatClock(h: nat, m: nat): string
    requires h < 24 && m < 60
  {
    [DigitChar(h / 10), DigitChar(h % 10), ':', DigitChar(m / 10), DigitChar(m % 10)]
  }

  lemma TwoDigits(s: string)
    requires |s| == 2 && IsDigit(s[0]) && IsDigit(s[1])
    ensures DigitsValue(s) == DigitValue(s[0]) * 10 + DigitValue(s[1])
  {
    assert s[..|s| - 1] == [s[0]];
    assert [s[0]][..0] == [];
    assert DigitsValue([s[0]]) == DigitValue(s[0]);
  }

  /** Every clock value the time input can hold reads back as itself. */
  lemma ClockRoundTrip(h: nat, m: nat)
    requires h < 24 && m < 60
    ensures ParseClock(FormatClock(h, m)) == Some((h, m))
  {
    var s := FormatClock(h, m);
    TwoDigits(s[0..2]);
    TwoDigits(s[3..5]);
  }

  /** Today at HH:MM:00.000 when that is strictly later than `now`, else the same time the
      next day. */
  function NextFire(now: int, h: nat, m: nat): (fire: int)
    ensures fire > now
    ensures h < 24 && m < 60 ==> fire - now <= DayMs && fire % DayMs == h * HourMs + m * MinuteMs
  {
    var midnight := now - now % DayMs;
    var today := midnight + h * HourMs + m * MinuteMs;
    if today <= now then today + DayMs else today
  }

  /** Firing at the scheduled moment schedules the same reminder exactly one day later. */
  lemma FiringRecursDaily(now: int, h: nat, m: nat)
    requires h < 24 && m < 60
    ensures NextFire(NextFire(now, h, m), h, m) == NextFire(now, h, m) + DayMs
  {
    var t := NextFire(now, h, m);
    assert t - t % DayMs + h * HourMs + m * MinuteMs == t;
  }

  // ---------------------------------------------------------------------------
  // Pending timers
  // ---------------------------------------------------------------------------

  /** A pending `setTimeout`: its handle, the reminder it belongs to, and when it fires. */
  datatype Timer = Timer(handle: nat, id: string, fireAt: int)

  /** The pending timers of the page, the `scheduledTimeouts` map (reminder id to handle),
      and the next fresh handle. */
  datatype Timers = Timers(live: seq<Timer>, table: map<string, nat>, next: nat)

  function ClearHandle(live: seq<Timer>, handle: nat): (r: seq<Timer>)
    ensures forall x :: x in r <==> x in live && x.handle != handle
  {
    if |live| == 0 then []
    else if live[0].handle == handle then ClearHandle(live[1..], handle)
    else [live[0]] + ClearHandle(live[1..], handle)
  }

  /** The body of `scheduleNotification` once permission is there: clear the timer that
      `view` records for the reminder, start a new one, record it in the table. `view` is the
      table as the calling closure sees it. */
  function ScheduleWith(view: map<string, nat>, t: Timers, id: string, fireAt: int): (r: Timers)
    ensures r.table == t.table[id := t.next] && r.next == t.next + 1
    ensures Timer(t.next, id, fireAt) in r.live
    ensures forall x :: x in r.live <==> x == Timer(t.next, id, fireAt) || (x in t.live && !(id in view && x.handle == view[id]))
  {
    var kept := if id in view then ClearHandle(t.live, view[id]) else t.live;
    Timers(kept + [Timer(t.next, id, fireAt)], t.table[id := t.next], t.next + 1)
  }

  /** Scheduling against the current table: any earlier timer of the reminder is cleared. */
  function Schedule(t: Timers, id: string, fireAt: int): Timers {
    ScheduleWith(t.table, t, id, fireAt)
  }

  /** The timer part of `handleDeleteReminder`: clear the recorded timer and drop the entry. */
  function Unschedule(t: Timers, id: string): (r: Timers)
    ensures r.table == t.table - {id}
    ensures forall k :: k in t.table && k != id ==> k in r.table && r.table[k] == t.table[k]
    ensures forall x :: x in r.live <==> x in t.live && !(id in t.table && x.handle == t.table[id])
  {
    if id in t.table then Timers(ClearHandle(t.live, t.table[id]), t.table - {id}, t.next) else t
  }

  /** Every pending timer is the one its reminder's table entry records, handles are
      fresh below `next`, and no two reminders record the same handle; so each reminder has
      at most one pending timer, and clearing one reminder's timer spares the others. */
  ghost predicate Tracked(t: Timers) {
    && (forall x :: x in t.live ==> x.id in t.table && t.table[x.id] == x.handle && x.handle < t.next)
    && (forall k :: k in t.table ==> t.table[k] < t.next)
    && (forall a, b :: a in t.table && b in t.table && a != b ==> t.table[a] != t.table[b])
  }

  /** Under `Tracked`, clearing the handle one reminder records spares every timer of the
      other reminders. */
  lemma OtherRemindersKeepTheirTimers(t: Timers, id: string, x: Timer)
    requires Tracked(t) && x in t.live && x.id != id
    ensures !(id in t.table && x.handle == t.table[id])
  {
  }

  lemma ScheduleKeepsTracked(t: Timers, id: string, fireAt: int)
    requires Tracked(t)
    ensures Tracked(Schedule(t, id, fireAt))
    ensures forall k :: k in t.table && k != id ==> Schedule(t, id, fireAt).table[k] == t.table[k]
  {
  }

  lemma UnscheduleKeepsTracked(t: Timers, id: string)
    requires Tracked(t)
    ensures Tracked(Unschedule(t, id))
    ensures forall x :: x in Unschedule(t, id).live ==> x.id != id
  {
  }

  /** Under `Tracked`, two pending timers of one reminder are the same timer. */
  lemma AtMostOneTimerPerReminder(t: Timers, x: Timer, y: Timer)
    requires Tracked(t) && x in t.live && y in t.live && x.id == y.id
    ensures x.handle == y.handle
  {
  }

  lemma UnscheduleTrackedCase(t: Timers, id: string)
    ensures Tracked(t) ==> Tracked(Unschedule(t, id)) && forall x :: x in Unschedule(t, id).live ==> x.id != id
  {
    if Tracked(t) { UnscheduleKeepsTracked(t, id); }
  }

  /** No pending timers yet. Browser timer handles are positive, so the first is 1. */
  const NoTimers: Timers := Timers([], map[], 1)

  // ---------------------------------------------------------------------------
  // The component's operations
  // ---------------------------------------------------------------------------

  datatype Reminder = Reminder(id: string, medicineName: string, time: string, note: string)

  /** `scheduleNotification` as a closure sees it, `view` being that closure's copy of the
      table: nothing happens without notification permission (the component's flag or the
      browser's); otherwise the timer `view` records is cleared and a new one fires at the
      next occurrence of the reminder's time. Time strings that are not "HH:MM" are left
      alone. */
  function ScheduleReminderWith(view: map<string, nat>, t: Timers, flagGranted: bool, browserGranted: bool,
                                r: Reminder, now: int): (u: Timers)
    ensures !(flagGranted || browserGranted) || ParseClock(r.time).None? ==> u == t
    ensures (flagGranted || browserGranted) && ParseClock(r.time).Some? ==>
      && u.table == t.table[r.id := t.next] && u.next == t.next + 1
      && Timer(t.next, r.id, NextFire(now, ParseClock(r.time).value.0, ParseClock(r.time).value.1)) in u.live
      && forall x :: x in u.live <==>
           || x == Timer(t.next, r.id, NextFire(now, ParseClock(r.time).value.0, ParseClock(r.time).value.1))
           || (x in t.live && !(r.id in view && x.handle == view[r.id]))
  {
    if !flagGranted && !browserGranted then t
    else
      match ParseClock(r.time)
      case None => t
      case Some((h, m)) => ScheduleWith(view, t, r.id, NextFire(now, h, m))
  }

  /** Scheduling against the current table keeps every reminder down to one pending timer:
      the one left for this reminder is the new one, and the other reminders keep theirs. */
  function ScheduleReminder(t: Timers, flagGranted: bool, browserGranted: bool, r: Reminder, now: int): (u: Timers)
    ensures Tracked(t) ==> Tracked(u)
    ensures !(flagGranted || browserGranted) || ParseClock(r.time).None? ==> u == t
    ensures (flagGranted || browserGranted) && ParseClock(r.time).Some? ==>
      Timer(t.next, r.id, NextFire(now, ParseClock(r.time).value.0, ParseClock(r.time).value.1)) in u.live
    ensures Tracked(t) && (flagGranted || browserGranted) && ParseClock(r.time).Some? ==>
      forall x :: x in u.live && x.id == r.id ==>
        x == Timer(t.next, r.id, NextFire(now, ParseClock(r.time).value.0, ParseClock(r.time).value.1))
    ensures Tracked(t) ==> forall x :: x in t.live && x.id != r.id ==> x in u.live
  {
    OthersSurviveSchedule(t, flagGranted, browserGranted, r, now);
    ScheduleTrackedCase(t, r, now);
    ScheduleReminderWith(t.table, t, flagGranted, browserGranted, r, now)
  }

  lemma OthersSurviveSchedule(t: Timers, flagGranted: bool, browserGranted: bool, r: Reminder, now: int)
    ensures Tracked(t) ==> forall x :: x in t.live && x.id != r.id ==>
      x in ScheduleReminderWith(t.table, t, flagGranted, browserGranted, r, now).live
  {
    if Tracked(t) {
      forall x | x in t.live && x.id != r.id
        ensures x in ScheduleReminderWith(t.table, t, flagGranted, browserGranted, r, now).live
      {
        OtherRemindersKeepTheirTimers(t, r.id, x);
      }
    }
  }

  lemma ScheduleTrackedCase(t: Timers, r: Reminder, now: int)
    ensures ParseClock(r.time).Some? && Tracked(t) ==>
      Tracked(Schedule(t, r.id, NextFire(now, ParseClock(r.time).value.0, ParseClock(r.time).value.1)))
  {
    if ParseClock(r.time).Some? && Tracked(t) {
      ScheduleKeepsTracked(t, r.id, NextFire(now, ParseClock(r.time).value.0, ParseClock(r.time).value.1));
    }
  }

  /** The reminder ids a delivery schedules: those with a readable time, given permission. */
  ghost predicate Scheduled(k: string, permitted: bool, rs: seq<Reminder>) {
    permitted && exists i :: 0 <= i < |rs| && rs[i].id == k && ParseClock(rs[i].time).Some?
  }

  /** The snapshot listener's loop over the delivered reminders, every call going through
      the listener's closure and so through its copy `view` of the table. */
  function DeliverAsWritten(view: map<string, nat>, t: Timers, flagGranted: bool, browserGranted: bool,
                            rs: seq<Reminder>, now: int): (u: Timers)
    ensures forall k :: k in u.table <==> k in t.table || Scheduled(k, flagGranted || browserGranted, rs)
    decreases |rs|
  {
    if |rs| == 0 then t
    else
      var u := DeliverAsWritten(view, ScheduleReminderWith(view, t, flagGranted, browserGranted, rs[0], now),
                                flagGranted, browserGranted, rs[1..], now);
      var p := flagGranted || browserGranted;
      assert forall k :: Scheduled(k, p, rs) <==>
        (k == rs[0].id && p && ParseClock(rs[0].time).Some?) || Scheduled(k, p, rs[1..]) by {
        forall k | Scheduled(k, p, rs[1..])
          ensures Scheduled(k, p, rs)
        {
          var i :| 0 <= i < |rs[1..]| && rs[1..][i].id == k && ParseClock(rs[1..][i].time).Some?;
          assert rs[i + 1] == rs[1..][i];
        }
        forall k | Scheduled(k, p, rs) && k != rs[0].id
          ensures Scheduled(k, p, rs[1..])
        {
          var i :| 0 <= i < |rs| && rs[i].id == k && ParseClock(rs[i].time).Some?;
          assert rs[1..][i - 1] == rs[i];
        }
      }
      u
  }

  /** A call of `scheduleNotification` for `r` starts a timer: permission is there and the
      time is readable. */
  predicate Schedules(flagGranted: bool, browserGranted: bool, r: Reminder) {
    (flagGranted || browserGranted) && ParseClock(r.time).Some?
  }

  /** A pending timer belongs to reminder `k`. */
  ghost predicate HasTimer(t: Timers, k: string) {
    exists x :: x in t.live && x.id == k
  }

  /** The same loop with every call seeing the current table: each reminder it schedules
      ends with a pending timer, and the timers of reminders it does not schedule are left
      running. */
  function Deliver(t: Timers, flagGranted: bool, browserGranted: bool, rs: seq<Reminder>, now: int): (u: Timers)
    ensures Tracked(t) ==> Tracked(u)
    ensures Tracked(t) ==> forall x ::
      x in t.live && (forall i :: 0 <= i < |rs| && rs[i].id == x.id ==> !Schedules(flagGranted, browserGranted, rs[i]))
      ==> x in u.live
    ensures Tracked(t) ==>
      forall i :: 0 <= i < |rs| && Schedules(flagGranted, browserGranted, rs[i]) ==> HasTimer(u, rs[i].id)
    decreases |rs|
  {
    if |rs| == 0 then t
    else
      var t1 := ScheduleReminder(t, flagGranted, browserGranted, rs[0], now);
      var u := Deliver(t1, flagGranted, browserGranted, rs[1..], now);
      DeliveryStep(t1, u, rs, flagGranted, browserGranted);
      u
  }

  /** The step of `Deliver`'s proof: the timer the first reminder got either survives the
      rest of the loop, when no later reminder shares its id, or is replaced by a later one's. */
  lemma DeliveryStep(t1: Timers, u: Timers, rs: seq<Reminder>, flagGranted: bool, browserGranted: bool)
    requires |rs| > 0
    ensures
      && (Schedules(flagGranted, browserGranted, rs[0]) ==> HasTimer(t1, rs[0].id))
      && (forall x :: x in t1.live &&
            (forall i :: 0 <= i < |rs[1..]| && rs[1..][i].id == x.id ==> !Schedules(flagGranted, browserGranted, rs[1..][i]))
            ==> x in u.live)
      && (forall i :: 0 <= i < |rs[1..]| && Schedules(flagGranted, browserGranted, rs[1..][i]) ==> HasTimer(u, rs[1..][i].id))
      ==> forall i :: 0 <= i < |rs| && Schedules(flagGranted, browserGranted, rs[i]) ==> HasTimer(u, rs[i].id)
  {
    var rest := rs[1..];
    if && (Schedules(flagGranted, browserGranted, rs[0]) ==> HasTimer(t1, rs[0].id))
       && (forall x :: x in t1.live &&
             (forall i :: 0 <= i < |rest| && rest[i].id == x.id ==> !Schedules(flagGranted, browserGranted, rest[i]))
             ==> x in u.live)
       && (forall i :: 0 <= i < |rest| && Schedules(flagGranted, browserGranted, rest[i]) ==> HasTimer(u, rest[i].id))
    {
      forall i | 0 <= i < |rs| && Schedules(flagGranted, browserGranted, rs[i])
        ensures HasTimer(u, rs[i].id)
      {
        if i > 0 {
          assert rest[i - 1] == rs[i];
        } else {
          var x :| x in t1.live && x.id == rs[0].id;
          if j :| 0 <= j < |rest| && rest[j].id == x.id && Schedules(flagGranted, browserGranted, rest[j]) {
            assert HasTimer(u, rest[j].id);
          } else {
            assert x in u.live;
          }
        }
      }
    }
  }

  datatype ReminderDoc = ReminderDoc(medicineName: string, time: string, note: string)

  datatype SetResult = NotSignedIn | MissingFields | NoPermission | SaveFailed | SavedDoc(doc: ReminderDoc)

  /** `handleSetReminder`: signed-in user, a non-blank name and a time, then notification
      permission, then the write; name and note are stored trimmed. */
  function SetReminder(uid: Option<string>, medicineName: string, time: string, note: string,
                       permitted: bool, saved: bool): (r: SetResult)
    ensures r == NotSignedIn <==> !Triage.Truthy(uid)
    ensures r == MissingFields <==> Triage.Truthy(uid) && (AllSpace(medicineName) || time == "")
    ensures r == NoPermission <==> Triage.Truthy(uid) && !AllSpace(medicineName) && time != "" && !permitted
    ensures r == SaveFailed <==>
      Triage.Truthy(uid) && !AllSpace(medicineName) && time != "" && permitted && !saved
    ensures r.SavedDoc? <==> Triage.Truthy(uid) && !AllSpace(medicineName) && time != "" && permitted && saved
    ensures r.SavedDoc? ==>
      && permitted && saved && time != ""
      && r.doc == ReminderDoc(Trim(medicineName), time, Trim(note))
      && Trim(medicineName) != []
      && !IsSpace(r.doc.medicineName[0]) && !IsSpace(r.doc.medicineName[|r.doc.medicineName| - 1])
  {
    TrimEmptyIffBlank(medicineName);
    if !Triage.Truthy(uid) then NotSignedIn
    else if Trim(medicineName) == "" || time == "" then MissingFields
    else if !permitted then NoPermission
    else if !saved then SaveFailed
    else SavedDoc(ReminderDoc(Trim(medicineName), time, Trim(note)))
  }

  /** `handleDeleteReminder`: signed out, or the delete failing, leaves the timers alone;
      otherwise only this reminder's entry goes. */
  function DeleteReminder(uid: Option<string>, t: Timers, id: string, deleted: bool): (u: Timers)
    ensures !Triage.Truthy(uid) || !deleted ==> u == t
    ensures Triage.Truthy(uid) && deleted ==>
      && u.table == t.table - {id}
      && (forall x :: x in u.live <==> x in t.live && !(id in t.table && x.handle == t.table[id]))
      && (Tracked(t) ==> Tracked(u) && forall x :: x in u.live ==> x.id != id)
      && (Tracked(t) ==> forall x :: x in t.live && x.id != id ==> x in u.live)
  {
    if !Triage.Truthy(uid) || !deleted then t
    else
      UnscheduleTrackedCase(t, id);
      Unschedule(t, id)
  }

  /** The listener keeps the empty table of the first render, so a second delivery of a
      reminder starts a second timer without clearing the first, and deleting the reminder
      then clears only the newer one: the deleted reminder keeps firing. */
  lemma StaleTableKeepsDeletedReminderFiring(uid: string, r: Reminder, now1: int, now2: int)
    requires uid != "" && r.time == FormatClock(8, 0)
    ensures var once := DeliverAsWritten(map[], NoTimers, true, true, [r], now1);
      var twice := DeliverAsWritten(map[], once, true, true, [r], now2);
      && Timer(1, r.id, NextFire(now1, 8, 0)) in twice.live
      && Timer(2, r.id, NextFire(now2, 8, 0)) in twice.live
      && Timer(1, r.id, NextFire(now1, 8, 0)) in DeleteReminder(Some(uid), twice, r.id, true).live
  {
    ClockRoundTrip(8, 0);
    assert [r][1..] == [];
    var once := ScheduleReminderWith(map[], NoTimers, true, true, r, now1);
    assert DeliverAsWritten(map[], NoTimers, true, true, [r], now1) == once;
    assert once.live == [Timer(1, r.id, NextFire(now1, 8, 0))];
    var twice := ScheduleReminderWith(map[], once, true, true, r, now2);
    assert DeliverAsWritten(map[], once, true, true, [r], now2) == twice;
    assert twice.live == once.live + [Timer(2, r.id, NextFire(now2, 8, 0))];
    assert twice.table[r.id] == 2;
  }

  /** Seeing the current table, any sequence of deliveries leaves at most one timer per
      reminder, and deleting a reminder leaves it none. */
  lemma DeliveriesThenDeleteLeaveNoTimer(uid: string, t: Timers, flagGranted: bool, browserGranted: bool,
                                         rs1: seq<Reminder>, rs2: seq<Reminder>, now1: int, now2: int, id: string)
    requires Tracked(t) && uid != ""
    ensures var twice := Deliver(Deliver(t, flagGranted, browserGranted, rs1, now1), flagGranted, browserGranted, rs2, now2);
      && Tracked(twice)
      && forall x :: x in DeleteReminder(Some(uid), twice, id, true).live ==> x.id != id
  {
  }
}

=== FILE: settings.dfy ===
/** The settings provider: dark mode, base font size and language, restored from browser
    storage and then from the signed-in user's cloud preferences document, and written back
    to both by the setters. */
module Settings {
  import opened Wrappers

  /** Browser `localStorage`: string keys to string values. */
  type Store = map<string, string>

  const DarkModeKey: string := "app_darkMode"
  const FontSizeKey: string := "app_fontSize"
  const LanguageKey: string := "app_language"

  const Languages: set<string> := {"en", "hi", "mr"}
  const FontSizes: set<string> := {"small", "medium", "large"}

  /** The provider's state. The font size is a string because a cloud document can carry
      one outside the three sizes, and the provider adopts it. */
  datatype Prefs = Prefs(darkMode: bool, fontSize: string, language: string)

  const Defaults: Prefs := Prefs(false, "medium", "en")

  /** Values that the setters' types allow. */
  ghost predicate Valid(p: Prefs) {
    p.fontSize in FontSizes && p.language in Languages
  }

  /** `fontSizeMap`: the CSS base font size for each of the three sizes. */
  function FontPx(size: string): (px: Option<string>)
    ensures px.Some? <==> size in FontSizes
    ensures size == "small" ==> px == Some("14px")
    ensures size == "medium" ==> px == Some("16px")
    ensures size == "large" ==> px == Some("18px")
  {
    if size == "small" then Some("14px")
    else if size == "medium" then Some("16px")
    else if size == "large" then Some("18px")
    else None
  }

  /** `String(b)` for a boolean. */
  function ShowBool(b: bool): string {
    if b then "true" else "false"
  }

  /** The key holds the same value, or is absent, in both stores. */
  predicate SameAt(a: Store, b: Store, k: string) {
    (k in a <==> k in b) && (k in a ==> a[k] == b[k])
  }

  /** The local half of loading, starting from the provider's `current` state: a stored
      language or font size is adopted only when it is one of the allowed values, a stored
      dark-mode value, when present, means dark exactly when it is "true", and anything
      missing or refused leaves the current value in place. */
  function RestoreLocal(current: Prefs, store: Store): (p: Prefs)
    ensures Valid(current) ==> Valid(p)
    ensures DarkModeKey in store ==> (p.darkMode <==> store[DarkModeKey] == "true")
    ensures DarkModeKey !in store ==> p.darkMode == current.darkMode
    ensures LanguageKey in store && store[LanguageKey] in Languages ==> p.language == store[LanguageKey]
    ensures !(LanguageKey in store && store[LanguageKey] in Languages) ==> p.language == current.language
    ensures FontSizeKey in store && store[FontSizeKey] in FontSizes ==> p.fontSize == store[FontSizeKey]
    ensures !(FontSizeKey in store && store[FontSizeKey] in FontSizes) ==> p.fontSize == current.fontSize
  {
    var lang := if LanguageKey in store && store[LanguageKey] in Languages then store[LanguageKey] else current.language;
    var dark := if DarkModeKey in store then store[DarkModeKey] == "true" else current.darkMode;
    var size := if FontSizeKey in store && store[FontSizeKey] in FontSizes then store[FontSizeKey] else current.fontSize;
    Prefs(dark, size, lang)
  }

  /** With nothing stored the provider keeps the state it has; on first mount that is the
      defaults: light, medium, English. */
  lemma EmptyStoreKeepsState(current: Prefs, signedIn: bool)
    ensures RestoreLocal(current, map[]) == current
    ensures Load(current, map[], signedIn, EmptyDoc).prefs == current
    ensures Load(Defaults, map[], signedIn, EmptyDoc).prefs == Prefs(false, "medium", "en")
  {
  }

  /** The cloud preferences document; a missing field is `None`. A missing document, or a
      read that fails, behaves as the document with no fields. */
  datatype CloudDoc = CloudDoc(darkMode: Option<bool>, fontSize: Option<string>, language: Option<string>)

  const EmptyDoc: CloudDoc := CloudDoc(None, None, None)

  /** What loading leaves behind: the provider's state and the browser storage. */
  datatype Device = Device(prefs: Prefs, store: Store)

  /** The storage agrees with the state: a fresh page, which starts from the defaults,
      restores the state from it. */
  ghost predicate Synced(d: Device) {
    RestoreLocal(Defaults, d.store) == d.prefs
  }

  /** `loadSettings`, run on mount (from the defaults) and again whenever the user changes
      (from the state the provider then has): the local values first, then, for a signed-in
      user, each field the cloud document sets overrides the local one and is written back
      to storage. The cloud font size only has to be non-empty; the cloud language must be
      one of the three. A field the document lacks or whose value is refused keeps the
      local value and leaves its key in storage as it was. */
  function Load(current: Prefs, store: Store, signedIn: bool, cloud: CloudDoc): (d: Device)
    ensures !signedIn ==> d == Device(RestoreLocal(current, store), store)
    ensures current.language in Languages ==> d.prefs.language in Languages
    ensures signedIn && cloud.darkMode.Some? ==>
      d.prefs.darkMode == cloud.darkMode.value && DarkModeKey in d.store && d.store[DarkModeKey] == ShowBool(cloud.darkMode.value)
    ensures cloud.darkMode.None? ==>
      d.prefs.darkMode == RestoreLocal(current, store).darkMode && SameAt(d.store, store, DarkModeKey)
    ensures signedIn && cloud.fontSize.Some? && cloud.fontSize.value != "" ==>
      d.prefs.fontSize == cloud.fontSize.value && FontSizeKey in d.store && d.store[FontSizeKey] == cloud.fontSize.value
    ensures cloud.fontSize.None? || cloud.fontSize.value == "" ==>
      d.prefs.fontSize == RestoreLocal(current, store).fontSize && SameAt(d.store, store, FontSizeKey)
    ensures signedIn && cloud.language.Some? && cloud.language.value in Languages ==>
      d.prefs.language == cloud.language.value && LanguageKey in d.store && d.store[LanguageKey] == cloud.language.value
    ensures cloud.language.None? || cloud.language.value !in Languages ==>
      d.prefs.language == RestoreLocal(current, store).language && SameAt(d.store, store, LanguageKey)
    ensures forall k :: k !in {DarkModeKey, FontSizeKey, LanguageKey} ==> SameAt(d.store, store, k)
  {
    var local := Device(RestoreLocal(current, store), store);
    if !signedIn then local
    else CloudLanguage(CloudFontSize(CloudDarkMode(local, cloud.darkMode), cloud.fontSize), cloud.language)
  }

  /** A cloud dark-mode value, when the document has one, is adopted and stored. */
  function CloudDarkMode(d: Device, v: Option<bool>): (r: Device)
    ensures v.Some? ==> r.prefs == d.prefs.(darkMode := v.value) && DarkModeKey in r.store && r.store[DarkModeKey] == ShowBool(v.value)
    ensures v.None? ==> r == d
    ensures forall k :: k != DarkModeKey ==> SameAt(r.store, d.store, k)
  {
    if v.Some? then Device(d.prefs.(darkMode := v.value), d.store[DarkModeKey := ShowBool(v.value)]) else d
  }

  /** A non-empty cloud font size is adopted and stored, whatever it is. */
  function CloudFontSize(d: Device, v: Option<string>): (r: Device)
    ensures v.Some? && v.value != "" ==> r.prefs == d.prefs.(fontSize := v.value) && FontSizeKey in r.store && r.store[FontSizeKey] == v.value
    ensures v.None? || v.value == "" ==> r == d
    ensures forall k :: k != FontSizeKey ==> SameAt(r.store, d.store, k)
  {
    if v.Some? && v.value != "" then Device(d.prefs.(fontSize := v.value), d.store[FontSizeKey := v.value]) else d
  }

  /** A cloud language is adopted and stored only when it is one of the three. */
  function CloudLanguage(d: Device, v: Option<string>): (r: Device)
    ensures v.Some? && v.value in Languages ==> r.prefs == d.prefs.(language := v.value) && LanguageKey in r.store && r.store[LanguageKey] == v.value
    ensures v.None? || v.value !in Languages ==> r == d
    ensures forall k :: k != LanguageKey ==> SameAt(r.store, d.store, k)
  {
    if v.Some? && v.value in Languages then Device(d.prefs.(language := v.value), d.store[LanguageKey := v.value]) else d
  }

  /** Device and cloud together. */
  datatype World = World(device: Device, cloud: CloudDoc)

  /** `toggleDarkMode`: flip the mode and store it; a signed-in user's document gets the new
      value when the merge write succeeds. */
  function ToggleDarkMode(w: World, signedIn: bool, writeOk: bool): (r: World)
    ensures r.device.prefs == w.device.prefs.(darkMode := !w.device.prefs.darkMode)
    ensures r.device.store == w.device.store[DarkModeKey := ShowBool(r.device.prefs.darkMode)]
    ensures r.cloud == (if signedIn && writeOk then w.cloud.(darkMode := Some(r.device.prefs.darkMode)) else w.cloud)
  {
    var mode := !w.device.prefs.darkMode;
    var device := Device(w.device.prefs.(darkMode := mode), w.device.store[DarkModeKey := ShowBool(mode)]);
    World(device, if signedIn && writeOk then w.cloud.(darkMode := Some(mode)) else w.cloud)
  }

  /** `setFontSize`: adopt the size, store it, and merge it into a signed-in user's document. */
  function SetFontSize(w: World, size: string, signedIn: bool, writeOk: bool): (r: World)
    requires size in FontSizes
    ensures r.device.prefs == w.device.prefs.(fontSize := size)
    ensures r.device.store == w.device.store[FontSizeKey := size]
    ensures r.cloud == (if signedIn && writeOk then w.cloud.(fontSize := Some(size)) else w.cloud)
  {
    var device := Device(w.device.prefs.(fontSize := size), w.device.store[FontSizeKey := size]);
    World(device, if signedIn && writeOk then w.cloud.(fontSize := Some(size)) else w.cloud)
  }

  /** `setLanguage`: adopt the language, store it, and merge it into a signed-in user's
      document. */
  function SetLanguage(w: World, lang: string, signedIn: bool, writeOk: bool): (r: World)
    requires lang in Languages
    ensures r.device.prefs == w.device.prefs.(language := lang)
    ensures r.device.store == w.device.store[LanguageKey := lang]
    ensures r.cloud == (if signedIn && writeOk then w.cloud.(language := Some(lang)) else w.cloud)
  {
    var device := Device(w.device.prefs.(language := lang), w.device.store[LanguageKey := lang]);
    World(device, if signedIn && writeOk then w.cloud.(language := Some(lang)) else w.cloud)
  }

  /** Each setter keeps storage and state in agreement, so a reload on the same browser
      comes back to the same settings. */
  lemma SettersKeepSynced(w: World, size: string, lang: string, signedIn: bool, writeOk: bool)
    requires Synced(w.device)
    requires size in FontSizes && lang in Languages
    ensures Synced(ToggleDarkMode(w, signedIn, writeOk).device)
    ensures Synced(SetFontSize(w, size, signedIn, writeOk).device)
    ensures Synced(SetLanguage(w, lang, signedIn, writeOk).device)
  {
  }

  /** Toggling twice gives back the original mode, and the stored value matches it again. */
  lemma ToggleTwiceRestores(w: World, signedIn: bool, writeOk: bool)
    requires Synced(w.device)
    ensures var r := ToggleDarkMode(ToggleDarkMode(w, signedIn, writeOk), signedIn, writeOk);
      r.device.prefs == w.device.prefs && RestoreLocal(Defaults, r.device.store) == RestoreLocal(Defaults, w.device.store)
  {
  }

  /** A local load is always synced: it only adopts values it would adopt again. */
  lemma LocalLoadIsSynced(store: Store)
    ensures Synced(Load(Defaults, store, false, EmptyDoc))
  {
  }

  /** A value written to the cloud document by a setter is what a signed-in load on a fresh
      browser adopts. */
  lemma CloudCarriesSettings(w: World, size: string, lang: string)
    requires size in FontSizes && lang in Languages
    ensures var r := SetLanguage(SetFontSize(ToggleDarkMode(w, true, true), size, true, true), lang, true, true);
      Load(Defaults, map[], true, r.cloud).prefs == r.device.prefs
  {
  }

  /** A cloud font size outside the three is adopted and stored, but it has no pixel value
      and a fresh page's local restore ignores it, so state and storage disagree. */
  lemma OddCloudFontSizeIsNotSynced(current: Prefs, store: Store)
    ensures var d := Load(current, store, true, CloudDoc(None, Some("huge"), None));
      d.prefs.fontSize == "huge" && FontPx(d.prefs.fontSize).None? && !Synced(d)
  {
    var d := Load(current, store, true, CloudDoc(None, Some("huge"), None));
    assert d.store[FontSizeKey] == "huge";
    assert RestoreLocal(Defaults, d.store).fontSize == "medium";
  }

  /** Signing out re-runs the load from the state the provider has, so such a font size
      outlives the session that brought it: storage refuses it and the state keeps it. */
  lemma SignOutKeepsOddFontSize(current: Prefs, store: Store)
    ensures var d := Load(current, store, true, CloudDoc(None, Some("huge"), None));
      Load(d.prefs, d.store, false, EmptyDoc).prefs.fontSize == "huge"
  {
    var d := Load(current, store, true, CloudDoc(None, Some("huge"), None));
    assert d.store[FontSizeKey] == "huge";
  }
}

=== FILE: sos.dfy ===
/** The emergency (SOS) modal as a state machine: confirmation, a ten-second countdown,
    processing of the alert, and success or error, with the cancel, close and retry
    controls each screen offers. */
module Sos {
  import opened Wrappers

  datatype Mode = Confirmation | Countdown | Processing | Success | Error

  /** A captured position; the maps link and time stamp derived from it are not modelled. */
  datatype Location = Location(latitude: real, longitude: real)

  datatype State = State(
    open: bool,
    mode: Mode,
    countdown: int,
    emergencyData: Option<Location>,
    error: Option<string>)

  /** How `captureLocation` ended. */
  datatype LocationResult = Located(location: Location) | Unsupported | Denied(reason: string)

  datatype Event =
    | Open             // the parent sets `isOpen`
    | Tick             // the countdown effect runs
    | StartAlert       // "Start Emergency Alert"
    | CancelButton     // "Cancel" / "Close" buttons wired to `handleCancel`
    | Backdrop         // click on the backdrop
    | CloseIcon        // the X in the corner
    | TryAgain         // "Try Again" on the error screen
    | Finished(location: LocationResult, saved: bool)  // `handleEmergency` settles

  const CountdownStart: int := 10
  const UnsupportedMessage: string := "Geolocation is not supported by your browser"
  const DeniedLead: string := "Location access denied: "
  const SaveFailedMessage: string := "Failed to save emergency data"

  const Closed: State := State(false, Confirmation, CountdownStart, None, None)

  /** The well-formedness every reachable state keeps. */
  ghost predicate Inv(s: State) {
    && 0 <= s.countdown <= CountdownStart
    && (s.mode == Processing || s.mode == Success || s.mode == Error ==> s.countdown == 0)
    && (s.mode == Success ==> s.emergencyData.Some?)
    && (s.mode == Error ==> s.error.Some? && s.error.value != "")
  }

  /** The reset effect when the modal opens. */
  function Reset(s: State): State {
    State(true, Confirmation, CountdownStart, None, None)
  }

  /** `handleCancel`: back to confirmation with a full counter, and the parent closes the
      modal; the emergency data and the error are left as they are. */
  function Cancel(s: State): (r: State)
    ensures !r.open && r.mode == Confirmation && r.countdown == CountdownStart
    ensures r.emergencyData == s.emergencyData && r.error == s.error
  {
    s.(open := false, mode := Confirmation, countdown := CountdownStart)
  }

  /** The countdown effect: one second off while the counter is positive, and at zero the
      start of `handleEmergency`, which enters processing. */
  function CountdownTick(s: State): (r: State)
    ensures s.mode == Countdown && s.countdown > 0 ==> r == s.(countdown := s.countdown - 1)
    ensures s.mode == Countdown && s.countdown == 0 ==> r == s.(mode := Processing)
    ensures s.mode != Countdown ==> r == s
  {
    if s.mode == Countdown && s.countdown > 0 then s.(countdown := s.countdown - 1)
    else if s.mode == Countdown && s.countdown == 0 then s.(mode := Processing)
    else s
  }

  /** The end of `handleEmergency`: success exactly when the location was captured and the
      record was saved; otherwise the error screen with the thrown message. */
  function Finish(s: State, location: LocationResult, saved: bool): (r: State)
    ensures r.mode == Success <==> location.Located? && saved
    ensures r.mode == Error <==> !(location.Located? && saved)
    ensures r.mode == Error ==> r.error.Some? && r.error.value != ""
    ensures r.mode == Success ==> r.emergencyData == Some(location.location)
    ensures r.countdown == s.countdown && r.open == s.open
  {
    match location
    case Unsupported => s.(mode := Error, error := Some(UnsupportedMessage))
    case Denied(reason) => s.(mode := Error, error := Some(DeniedLead + reason))
    case Located(l) =>
      if saved then s.(emergencyData := Some(l), mode := Success)
      else s.(emergencyData := Some(l), mode := Error, error := Some(SaveFailedMessage))
  }

  /** "Try Again" as the component writes it: confirmation and no error, counter untouched. */
  function RetryAsWritten(s: State): (r: State)
    ensures r.mode == Confirmation && r.error.None? && r.countdown == s.countdown
  {
    s.(mode := Confirmation, error := None)
  }

  /** "Try Again" with the counter re-armed, as cancelling does. */
  function Retry(s: State): (r: State)
    ensures r.mode == Confirmation && r.error.None? && r.countdown == CountdownStart
    ensures r.open == s.open && r.emergencyData == s.emergencyData
  {
    s.(mode := Confirmation, error := None, countdown := CountdownStart)
  }

  /** One event, as the component handles it. Controls act only while the screen that shows
      them is up; the countdown effect and the outcome of the alert act whatever the screen.
      Every event keeps the invariant: the counter stays in [0, 10], a success has its data
      and an error its message. */
  function Step(s: State, e: Event): (r: State)
    ensures Inv(s) ==> Inv(r)
    ensures !s.open && e != Open && e != Tick && !e.Finished? ==> r == s
    ensures e == TryAgain && s.open && s.mode == Error ==> r.countdown == s.countdown
  {
    match e
    case Open => if !s.open then Reset(s) else s
    case Tick => CountdownTick(s)
    case StartAlert => if s.open && s.mode == Confirmation then s.(mode := Countdown) else s
    case CancelButton => if s.open && s.mode != Processing then Cancel(s) else s
    case Backdrop => if s.open && s.mode == Confirmation then Cancel(s) else s
    case CloseIcon => if s.open && s.mode == Confirmation then Cancel(s) else s
    case TryAgain => if s.open && s.mode == Error then RetryAsWritten(s) else s
    case Finished(location, saved) => if s.mode == Processing then Finish(s, location, saved) else s
  }

  /** The machine with the corrected "Try Again", which re-arms the counter. */
  function StepCorrected(s: State, e: Event): (r: State)
    ensures Inv(s) ==> Inv(r)
    ensures e != TryAgain ==> r == Step(s, e)
    ensures e == TryAgain && s.open && s.mode == Error ==> r.mode == Confirmation && r.countdown == CountdownStart
  {
    if e == TryAgain && s.open && s.mode == Error then Retry(s) else Step(s, e)
  }

  function Run(s: State, events: seq<Event>): State
    decreases |events|
  {
    if |events| == 0 then s else Run(Step(s, events[0]), events[1..])
  }

  lemma {:induction false} RunPreservesInv(s: State, events: seq<Event>)
    requires Inv(s)
    ensures Inv(Run(s, events))
    decreases |events|
  {
    if |events| > 0 {
      RunPreservesInv(Step(s, events[0]), events[1..]);
    }
  }

  /** Opening resets; starting keeps the counter; backdrop and close icon do nothing away
      from the confirmation screen; cancel is possible everywhere but in processing. */
  lemma ControlsByScreen(s: State)
    ensures !s.open ==> Step(s, Open) == State(true, Confirmation, CountdownStart, None, None)
    ensures s.open && s.mode == Confirmation ==>
      Step(s, StartAlert).mode == Countdown && Step(s, StartAlert).countdown == s.countdown
    ensures s.mode != Confirmation ==> Step(s, Backdrop) == s && Step(s, CloseIcon) == s
    ensures s.open && s.mode != Processing ==>
      Step(s, CancelButton).mode == Confirmation && Step(s, CancelButton).countdown == CountdownStart
    ensures s.mode == Processing ==> Step(s, CancelButton) == s
  {
  }

  function Ticks(s: State, n: nat): State
    decreases n
  {
    if n == 0 then s else Ticks(CountdownTick(s), n - 1)
  }

  /** From a counter of `c`, `c` ticks run it down to zero without leaving the countdown, and
      the next one starts the alert. */
  lemma {:induction false} CountdownTakesItsTime(s: State, n: nat)
    requires s.mode == Countdown && n <= s.countdown
    ensures Ticks(s, n) == s.(countdown := s.countdown - n)
    decreases n
  {
    if n > 0 {
      CountdownTakesItsTime(CountdownTick(s), n - 1);
    }
  }

  /** An error can only follow a finished countdown, so the counter reads zero there. The
      written "Try Again" keeps that zero: starting again then sends the alert on the very
      next tick, with no countdown. */
  lemma RetryAsWrittenSkipsCountdown(s: State)
    requires Inv(s) && s.open && s.mode == Error
    ensures s.countdown == 0
    ensures CountdownTick(Step(Step(s, TryAgain), StartAlert)).mode == Processing
  {
  }

  /** With the counter re-armed, a retried alert again waits ten ticks in the countdown
      before the eleventh starts it. */
  lemma RetryWaitsTenTicks(s: State)
    requires Inv(s) && s.open && s.mode == Error
    ensures var started := StepCorrected(StepCorrected(s, TryAgain), StartAlert);
      && Ticks(started, 10).mode == Countdown
      && Ticks(started, 10).countdown == 0
      && CountdownTick(Ticks(started, 10)).mode == Processing
  {
    var started := StepCorrected(StepCorrected(s, TryAgain), StartAlert);
    CountdownTakesItsTime(started, 10);
  }
}

=== FILE: text.dfy ===
/** String primitives the JavaScript code relies on: ASCII `toLowerCase`, `includes`,
    `startsWith`, `trim` (with ECMAScript's white-space set) and decimal `parseInt`. */
module Text {
  import opened Wrappers

  // ---------------------------------------------------------------------------
  // Lower-casing
  // ---------------------------------------------------------------------------

  predicate IsUpperAscii(c: char) {
    'A' <= c <= 'Z'
  }

  /** `toLowerCase` restricted to ASCII: upper-case letters move down by 32, every other
      character is kept. */
  function LowerChar(c: char): char {
    if IsUpperAscii(c) then (c as int + 32) as char else c
  }

  function Lower(s: string): (r: string)
    ensures |r| == |s|
    ensures forall i :: 0 <= i < |s| ==> r[i] == LowerChar(s[i])
  {
    seq(|s|, i requires 0 <= i < |s| => LowerChar(s[i]))
  }

  /** A lower-cased string holds no ASCII capital, and lower-casing it again changes nothing. */
  lemma LowerIsIdempotent(s: string)
    ensures forall i :: 0 <= i < |s| ==> !IsUpperAscii(Lower(s)[i])
    ensures Lower(Lower(s)) == Lower(s)
  {
  }

  // ---------------------------------------------------------------------------
  // Substring search
  // ---------------------------------------------------------------------------

  /** `kw` occurs in `text` starting at index `i`. */
  predicate OccursAt(text: string, kw: string, i: nat) {
    i + |kw| <= |text| && text[i..i + |kw|] == kw
  }

  /** `kw` is a substring of `text` (the meaning of `text.includes(kw)`). */
  ghost predicate Occurs(text: string, kw: string) {
    exists i: nat :: OccursAt(text, kw, i)
  }

  /** Occurrences in `text[1..]` are the occurrences in `text` shifted by one. */
  lemma OccursInTail(text: string, kw: string)
    requires |text| > 0 && !OccursAt(text, kw, 0)
    ensures Occurs(text, kw) <==> Occurs(text[1..], kw)
  {
    if Occurs(text, kw) {
      var i: nat :| OccursAt(text, kw, i);
      assert i > 0;
      assert text[1..][i - 1..i - 1 + |kw|] == text[i..i + |kw|];
      assert OccursAt(text[1..], kw, i - 1);
    }
    if Occurs(text[1..], kw) {
      var j: nat :| OccursAt(text[1..], kw, j);
      assert text[1..][j..j + |kw|] == text[j + 1..j + 1 + |kw|];
      assert OccursAt(text, kw, j + 1);
    }
  }

  /** `String.prototype.includes`: a scan from the left, one start position at a time. */
  function Includes(text: string, kw: string): (r: bool)
    ensures r <==> Occurs(text, kw)
    decreases |text|
  {
    if |text| < |kw| then
      false
    else if text[..|kw|] == kw then
      assert OccursAt(text, kw, 0);
      true
    else if |text| == 0 then
      false
    else
      OccursInTail(text, kw);
      Includes(text[1..], kw)
  }

  predicate StartsWith(s: string, prefix: string) {
    |prefix| <= |s| && s[..|prefix|] == prefix
  }

  // ---------------------------------------------------------------------------
  // White space and trimming
  // ---------------------------------------------------------------------------

  /** ECMAScript's WhiteSpace and LineTerminator characters: what `trim` removes and what
      `parseInt` skips. */
  predicate IsSpace(c: char) {
    || c == '\U{0009}' || c == '\U{000A}' || c == '\U{000B}' || c == '\U{000C}' || c == '\U{000D}'
    || c == '\U{0020}' || c == '\U{00A0}' || c == '\U{1680}' || ('\U{2000}' <= c <= '\U{200A}')
    || c == '\U{2028}' || c == '\U{2029}' || c == '\U{202F}' || c == '\U{205F}' || c == '\U{3000}'
    || c == '\U{FEFF}'
  }

  ghost predicate AllSpace(s: string) {
    forall i :: 0 <= i < |s| ==> IsSpace(s[i])
  }

  /** `trimStart`: drops the longest all-space prefix. */
  function TrimStart(s: string): (r: string)
    ensures |r| <= |s| && r == s[|s| - |r|..]
    ensures AllSpace(s[..|s| - |r|])
    ensures r == [] || !IsSpace(r[0])
  {
    if |s| > 0 && IsSpace(s[0]) then TrimStart(s[1..]) else s
  }

  /** `trimEnd`: drops the longest all-space suffix. */
  function TrimEnd(s: string): (r: string)
    ensures |r| <= |s| && r == s[..|r|]
    ensures AllSpace(s[|r|..])
    ensures r == [] || !IsSpace(r[|r| - 1])
  {
    if |s| > 0 && IsSpace(s[|s| - 1]) then
      var r := TrimEnd(s[..|s| - 1]);
      assert s[|r|..] == s[..|s| - 1][|r|..] + [s[|s| - 1]];
      r
    else
      s
  }

  /** `r` is what is left of `s` once the all-space prefix `s[..a]` and an all-space suffix
      are cut off. */
  ghost predicate IsCore(s: string, r: string, a: nat) {
    a + |r| <= |s| && r == s[a..a + |r|] && AllSpace(s[..a]) && AllSpace(s[a + |r|..])
  }

  /** `String.prototype.trim`. */
  function Trim(s: string): (r: string)
    ensures exists a: nat :: IsCore(s, r, a)
    ensures r == [] || (!IsSpace(r[0]) && !IsSpace(r[|r| - 1]))
  {
    var t := TrimStart(s);
    var r := TrimEnd(t);
    assert IsCore(s, r, |s| - |t|) by {
      assert s[|s| - |t|..][..|r|] == s[|s| - |t|..|s| - |t| + |r|];
      assert s[|s| - |t| + |r|..] == t[|r|..];
    }
    r
  }

  /** A trimmed string is empty exactly when the input is blank. */
  lemma {:induction false} TrimEmptyIffBlank(s: string)
    ensures Trim(s) == [] <==> AllSpace(s)
  {
    var r := Trim(s);
    var a: nat :| IsCore(s, r, a);
    if r == [] {
      forall i | 0 <= i < |s| ensures IsSpace(s[i]) {
        if i < a { assert s[..a][i] == s[i]; } else { assert s[a..][i - a] == s[i]; }
      }
    }
  }

  /** Trimming twice is trimming once. */
  lemma TrimIsIdempotent(s: string)
    ensures Trim(Trim(s)) == Trim(s)
  {
    var r := Trim(s);
    if r != [] {
      assert TrimStart(r) == r;
      assert TrimEnd(r) == r;
    }
  }

  // ---------------------------------------------------------------------------
  // Decimal numbers
  // ---------------------------------------------------------------------------

  predicate IsDigit(c: char) {
    '0' <= c <= '9'
  }

  function DigitValue(c: char): nat
    requires IsDigit(c)
  {
    c as int - '0' as int
  }

  function DigitChar(d: nat): (c: char)
    requires d < 10
    ensures IsDigit(c) && DigitValue(c) == d
  {
    ('0' as int + d) as char
  }

  /** Length of the run of decimal digits at the start of `s`. */
  function DigitRun(s: string): (n: nat)
    ensures n <= |s|
    ensures forall i :: 0 <= i < n ==> IsDigit(s[i])
    ensures n == |s| || !IsDigit(s[n])
  {
    if |s| > 0 && IsDigit(s[0]) then 1 + DigitRun(s[1..]) else 0
  }

  /** The value of a string of decimal digits, most significant first. */
  function DigitsValue(d: string): nat
    requires forall i :: 0 <= i < |d| ==> IsDigit(d[i])
  {
    if |d| == 0 then 0 else DigitsValue(d[..|d| - 1]) * 10 + DigitValue(d[|d| - 1])
  }

  /** Decimal rendering of a natural number without leading zeros. */
  function Show(n: nat): (s: string)
    ensures |s| > 0
    ensures forall i :: 0 <= i < |s| ==> IsDigit(s[i])
  {
    if n < 10 then [DigitChar(n)] else Show(n / 10) + [DigitChar(n % 10)]
  }

  /** `parseInt(s, 10)`: leading white space is skipped, then an optional sign, then the
      longest run of digits; no digit at all gives NaN, here `None`. */
  function ParseInt(s: string): Option<int> {
    var t := TrimStart(s);
    if |t| > 0 && t[0] == '-' then
      match ParseDigits(t[1..])
      case Some(v) => Some(-(v as int))
      case None => None
    else if |t| > 0 && t[0] == '+' then ParseDigits(t[1..])
    else ParseDigits(t)
  }

  /** The value of the leading run of digits, `None` when there is none. */
  function ParseDigits(body: string): Option<nat> {
    var n := DigitRun(body);
    if n == 0 then None else Some(DigitsValue(body[..n]))
  }

  lemma {:induction false} ShowValue(n: nat)
    ensures DigitsValue(Show(n)) == n
    decreases n
  {
    if n >= 10 {
      var s := Show(n);
      assert s[..|s| - 1] == Show(n / 10);
      ShowValue(n / 10);
    }
  }

  lemma {:induction false} DigitRunOfDigits(s: string)
    requires forall i :: 0 <= i < |s| ==> IsDigit(s[i])
    ensures DigitRun(s) == |s|
  {
    if |s| > 0 {
      DigitRunOfDigits(s[1..]);
    }
  }

  lemma ShowIsBare(n: nat)
    ensures TrimStart(Show(n)) == Show(n)
    ensures Show(n)[0] != '-' && Show(n)[0] != '+'
  {
    var s := Show(n);
    assert IsDigit(s[0]);
    assert !IsSpace(s[0]);
  }

  lemma ParseDigitsShow(n: nat)
    ensures ParseDigits(Show(n)) == Some(n)
  {
    var s := Show(n);
    DigitRunOfDigits(s);
    assert s[..|s|] == s;
    ShowValue(n);
  }

  /** `parseInt` reads back every number the decimal rendering writes. */
  lemma ParseIntShow(n: nat)
    ensures ParseInt(Show(n)) == Some(n)
  {
    ShowIsBare(n);
    ParseDigitsShow(n);
  }
}

=== FILE: triage.dfy ===
/** The `/analyze-symptoms` handler as a pure function: input validation, the red-flag
    short circuit, the yellow-flag risk floor, the language-model ranking (passed in as an
    oracle reply and an abstract JSON parser), the confidence thresholds and the
    explanation text. */
module Triage {
  import opened Wrappers
  import opened Text
  import opened Keywords
  import JsonSpan

  // ---------------------------------------------------------------------------
  // Data
  // ---------------------------------------------------------------------------

  /** The three risk levels, ordered Green < Yellow < Red. */
  datatype Risk = Green | Yellow | Red {
    function Rank(): nat {
      match this
      case Green => 0
      case Yellow => 1
      case Red => 2
    }
  }

  predicate AtLeast(a: Risk, b: Risk) {
    a.Rank() >= b.Rank()
  }

  function Max(a: Risk, b: Risk): (r: Risk)
    ensures AtLeast(r, a) && AtLeast(r, b)
    ensures r == a || r == b
  {
    if AtLeast(a, b) then a else b
  }

  /** One ranked condition; the confidence is a JavaScript number, or absent when the model
      left it out (every comparison with `undefined` is false). */
  datatype Condition = Condition(condition: string, confidence: Option<real>)

  /** An entry of the `topConditions` array: a condition object, or `None` for a JSON
      `null`, which the handler cannot read a confidence from. */
  type Entry = Option<Condition>

  /** The two fields of the parsed model reply that the handler reads. */
  datatype Parsed = Parsed(topConditions: Option<seq<Entry>>, riskAssessment: Option<string>)

  /** What the language-model call produced: it threw, or it returned this text. */
  datatype OracleReply = Threw | Replied(text: string)

  /** The request body; `None` is a missing field. */
  datatype Request = Request(symptoms: Option<string>, age: Option<int>, gender: Option<string>)

  datatype TriageType = RuleBasedRed | RuleBasedGemini | ServerError

  datatype Flags = Flags(redFlag: Option<string>, yellowFlag: Option<string>)

  datatype Analysis = Analysis(age: int, gender: string)

  /** The HTTP status and JSON body; optional members are the keys one branch leaves out. */
  datatype Response = Response(
    status: int,
    riskLevel: Risk,
    topConditions: seq<Entry>,
    explanation: string,
    triageType: Option<TriageType>,
    detectedKeyword: Option<string>,
    flags: Option<Flags>,
    analysis: Option<Analysis>)

  const MissingFields: string := "Missing required fields: symptoms, age, gender"
  const NoAssessment: string := "Unable to provide assessment"
  const ConsultProvider: string := "Please consult a healthcare provider"
  const RedAlertLead: string := "EMERGENCY ALERT: Critical symptom detected ("
  const RedAlertTail: string := "). Seek immediate medical attention or call emergency services."
  const YellowLead: string := "\U{26A0}\U{FE0F} Yellow flag detected (\""
  const YellowTail: string := "\"): "
  const EmergencyLead: string := "\U{1F691} EMERGENCY: "
  const ServerErrorLead: string := "Server error: "
  /** The message of the `TypeError` Node.js raises when reading `.confidence` of `null`. */
  const NullReadMessage: string := "Cannot read properties of null (reading 'confidence')"

  /** What the handler substitutes when the model call or the parse fails. */
  const Fallback: Parsed :=
    Parsed(Some([Some(Condition("Unable to analyze", Some(0.0)))]), Some(ConsultProvider))

  // ---------------------------------------------------------------------------
  // Steps of the handler
  // ---------------------------------------------------------------------------

  predicate Truthy(s: Option<string>) {
    s.Some? && s.value != ""
  }

  /** `symptoms && age && gender` in JavaScript's sense: absent, empty and zero are falsy. */
  predicate HasRequiredFields(req: Request) {
    Truthy(req.symptoms) && req.age.Some? && req.age.value != 0 && Truthy(req.gender)
  }

  /** Floor set by the yellow scan. */
  function Floor(yellow: Option<string>): Risk {
    if yellow.Some? then Yellow else Green
  }

  /** The model result the handler goes on with: the parse of the extracted `{…}` span, or
      the fallback when the call throws, no span is found or the parse throws. */
  function ModelResult(reply: OracleReply, parse: string -> Option<Parsed>): Parsed {
    match reply
    case Threw => Fallback
    case Replied(text) =>
      match JsonSpan.Extract(text)
      case None => Fallback
      case Some(span) => parse(span).GetOr(Fallback)
  }

  /** `geminiResult.topConditions || []`. */
  function ModelConditions(reply: OracleReply, parse: string -> Option<Parsed>): seq<Entry> {
    ModelResult(reply, parse).topConditions.GetOr([])
  }

  /** The list starts with `null`: reading its confidence throws. */
  predicate NullFirst(conds: seq<Entry>) {
    |conds| > 0 && conds[0].None?
  }

  /** The top confidence, when there is a first condition carrying one. */
  function TopConfidence(conds: seq<Entry>): Option<real> {
    if |conds| > 0 && conds[0].Some? then conds[0].value.confidence else None
  }

  /** Independent reading of the thresholds: what the model's own confidence alone calls for. */
  function ModelLevel(conds: seq<Entry>): Risk {
    match TopConfidence(conds)
    case Some(c) => if c > 85.0 then Red else if c > 65.0 then Yellow else Green
    case None => Green
  }

  /** Step 4 of the handler: start at the floor, go to Red above 85, lift Green to Yellow
      above 65. */
  function FinalRisk(floor: Risk, conds: seq<Entry>): (r: Risk)
    requires !NullFirst(conds)
    ensures AtLeast(r, floor)
    ensures r == Max(floor, ModelLevel(conds))
  {
    var risk := floor;
    if |conds| > 0 && conds[0].value.confidence.Some? then
      var c := conds[0].value.confidence.value;
      if c > 85.0 then Red
      else if c > 65.0 then (if risk == Green then Yellow else risk)
      else risk
    else risk
  }

  /** `riskAssessment || 'Unable to provide assessment'`. */
  function AssessmentText(g: Parsed): string {
    if Truthy(g.riskAssessment) then g.riskAssessment.value else NoAssessment
  }

  /** Step 5 of the handler, with both of its prefix rules. */
  function Compose(redFlag: Option<string>, yellowFlag: Option<string>, base: string): string {
    var e := if yellowFlag.Some? && redFlag.None? then YellowLead + yellowFlag.value + YellowTail + base else base;
    if redFlag.Some? then EmergencyLead + e else e
  }

  /** The red-path explanation; it quotes the keyword verbatim. */
  function RedAlert(kw: string): (e: string)
    ensures Occurs(e, "\"" + kw + "\"")
  {
    var quoted := "\"" + kw + "\"";
    var e := RedAlertLead + quoted + RedAlertTail;
    assert OccursAt(e, quoted, |RedAlertLead|);
    e
  }

  /** The whole handler for one request. */
  function Analyze(req: Request, reply: OracleReply, parse: string -> Option<Parsed>): (r: Response)
    ensures !HasRequiredFields(req) ==>
      && r.status == 400 && r.riskLevel == Green && r.topConditions == []
      && r.explanation == MissingFields
    ensures HasRequiredFields(req) ==> r.status == 200 || r.status == 500
    ensures r.status == 500 <==>
      HasRequiredFields(req) && CheckRedFlags(req.symptoms.value).None? && NullFirst(ModelConditions(reply, parse))
    ensures r.status == 500 ==>
      && r.riskLevel == Green && r.topConditions == []
      && r.triageType == Some(ServerError) && r.explanation == ServerErrorLead + NullReadMessage
    ensures HasRequiredFields(req) && CheckRedFlags(req.symptoms.value).Some? ==>
      && r.riskLevel == Red && r.topConditions == []
      && r.triageType == Some(RuleBasedRed)
      && r.detectedKeyword == CheckRedFlags(req.symptoms.value)
      && Occurs(r.explanation, "\"" + r.detectedKeyword.value + "\"")
    ensures HasRequiredFields(req) && CheckRedFlags(req.symptoms.value).None? &&
            !NullFirst(ModelConditions(reply, parse)) ==>
      && r.status == 200 && r.triageType == Some(RuleBasedGemini)
      && r.topConditions == ModelConditions(reply, parse)
      && AtLeast(r.riskLevel, Floor(CheckYellowFlags(req.symptoms.value)))
      && (CheckYellowFlags(req.symptoms.value).Some? ==> r.riskLevel != Green)
      && (r.riskLevel == Red <==> TopConfidence(r.topConditions).Some? && TopConfidence(r.topConditions).value > 85.0)
  {
    if !HasRequiredFields(req) then
      Response(400, Green, [], MissingFields, None, None, None, None)
    else
      var symptoms := req.symptoms.value;
      var analysis := Some(Analysis(req.age.value, req.gender.value));
      match CheckRedFlags(symptoms)
      case Some(kw) =>
        Response(200, Red, [], RedAlert(kw), Some(RuleBasedRed), Some(kw), None, analysis)
      case None =>
        var yellow := CheckYellowFlags(symptoms);
        var g := ModelResult(reply, parse);
        var conds := ModelConditions(reply, parse);
        if NullFirst(conds) then
          Response(500, Green, [], ServerErrorLead + NullReadMessage, Some(ServerError), None, None, None)
        else
        Response(200, FinalRisk(Floor(yellow), conds), conds, Compose(None, yellow, AssessmentText(g)),
                 Some(RuleBasedGemini), None, Some(Flags(None, yellow)), analysis)
  }

  // ---------------------------------------------------------------------------
  // Properties
  // ---------------------------------------------------------------------------

  /** On the red path the reply of the model and the parser are never looked at: any two
      oracles give the same response. */
  lemma RedPathIgnoresOracle(req: Request, reply1: OracleReply, parse1: string -> Option<Parsed>,
                             reply2: OracleReply, parse2: string -> Option<Parsed>)
    requires HasRequiredFields(req) && CheckRedFlags(req.symptoms.value).Some?
    ensures Analyze(req, reply1, parse1) == Analyze(req, reply2, parse2)
  {
  }

  /** The validation failure is decided before any scan or model call. */
  lemma MissingFieldsIgnoresEverythingElse(req: Request, reply1: OracleReply, parse1: string -> Option<Parsed>,
                                           reply2: OracleReply, parse2: string -> Option<Parsed>)
    requires !HasRequiredFields(req)
    ensures Analyze(req, reply1, parse1) == Analyze(req, reply2, parse2)
  {
  }

  /** No entry carries a confidence. */
  predicate NoConfidence(entries: seq<Entry>) {
    forall i :: 0 <= i < |entries| && entries[i].Some? ==> entries[i].value.confidence.None?
  }

  /** What `JSON.parse` can give for a flat `{…}` text: no object can sit inside it, so no
      entry of `topConditions` is an object, and reading `confidence` from a string, a
      number or an array gives `undefined`. */
  ghost predicate JsonFaithful(parse: string -> Option<Parsed>) {
    forall s :: JsonSpan.IsFlatObject(s) && parse(s).Some? && parse(s).value.topConditions.Some? ==>
      NoConfidence(parse(s).value.topConditions.value)
  }

  /** With a parser that behaves as `JSON.parse` does, the model's confidence never counts:
      the extracted span holds no condition object, the fallback's confidence is 0, so every
      200 answer of the model path carries exactly the keyword floor and is never Red. */
  lemma ModelNeverRaisesRisk(req: Request, reply: OracleReply, parse: string -> Option<Parsed>)
    requires JsonFaithful(parse)
    requires HasRequiredFields(req) && CheckRedFlags(req.symptoms.value).None?
    ensures var r := Analyze(req, reply, parse);
      r.status == 200 ==> r.riskLevel == Floor(CheckYellowFlags(req.symptoms.value)) && r.riskLevel != Red
  {
    if reply.Replied? {
      JsonSpan.ExtractIsFlat(reply.text);
    }
    var conds := ModelConditions(reply, parse);
    assert TopConfidence(conds).None? || TopConfidence(conds).value <= 65.0;
  }

  /** The thresholds are strict: exactly 85 does not give Red, exactly 65 does not lift the
      floor, a confidence in (65, 85] lifts Green to Yellow and keeps Yellow, and a low or
      missing confidence (or no condition at all) leaves the floor. */
  lemma ThresholdsAreStrict(floor: Risk, conds: seq<Entry>)
    requires floor != Red && !NullFirst(conds)
    ensures TopConfidence(conds) == Some(85.0) ==> FinalRisk(floor, conds) == Yellow
    ensures TopConfidence(conds) == Some(65.0) ==> FinalRisk(floor, conds) == floor
    ensures (TopConfidence(conds).Some? && 65.0 < TopConfidence(conds).value <= 85.0) ==>
      FinalRisk(floor, conds) == Yellow
    ensures (TopConfidence(conds).None? || TopConfidence(conds).value <= 65.0) ==>
      FinalRisk(floor, conds) == floor
  {
  }

  function Ranked(c: real): seq<Entry> {
    [Some(Condition("", Some(c)))]
  }

  /** A more confident model, or a higher floor, never lowers the final risk. */
  lemma FinalRiskIsMonotone(f1: Risk, f2: Risk, c1: real, c2: real)
    requires AtLeast(f2, f1) && c1 <= c2
    ensures AtLeast(FinalRisk(f2, Ranked(c2)), FinalRisk(f1, Ranked(c1)))
  {
    assert AtLeast(ModelLevel(Ranked(c2)), ModelLevel(Ranked(c1)));
  }

  /** When the model call throws or its reply holds no `{…}` span, the risk is the floor,
      the fallback condition (confidence 0) is returned, and the explanation ends in the
      advice to consult a provider, after the yellow notice when there was a yellow flag. */
  lemma FailedModelKeepsFloor(req: Request, reply: OracleReply, parse: string -> Option<Parsed>)
    requires HasRequiredFields(req) && CheckRedFlags(req.symptoms.value).None?
    requires reply.Threw? || JsonSpan.Extract(reply.text).None?
    ensures Analyze(req, reply, parse).riskLevel == Floor(CheckYellowFlags(req.symptoms.value))
    ensures Analyze(req, reply, parse).topConditions == [Some(Condition("Unable to analyze", Some(0.0)))]
    ensures Analyze(req, reply, parse).explanation ==
      match CheckYellowFlags(req.symptoms.value)
      case Some(kw) => YellowLead + kw + YellowTail + ConsultProvider
      case None => ConsultProvider
  {
  }

  /** On the model path the explanation is the model's assessment (or the stand-in text),
      preceded by the yellow notice exactly when a yellow keyword was found; the emergency
      prefix of the composer is never added because the red flag is null there. */
  lemma ExplanationOnModelPath(req: Request, reply: OracleReply, parse: string -> Option<Parsed>)
    requires HasRequiredFields(req) && CheckRedFlags(req.symptoms.value).None?
    requires !NullFirst(ModelConditions(reply, parse))
    ensures var r := Analyze(req, reply, parse);
      var base := AssessmentText(ModelResult(reply, parse));
      && (CheckYellowFlags(req.symptoms.value).Some? ==>
            r.explanation == YellowLead + CheckYellowFlags(req.symptoms.value).value + YellowTail + base)
      && (CheckYellowFlags(req.symptoms.value).None? ==> r.explanation == base)
      && (StartsWith(r.explanation, EmergencyLead) ==> StartsWith(base, EmergencyLead))
  {
    var yellow := CheckYellowFlags(req.symptoms.value);
    if yellow.Some? {
      YellowNoticeIsNotEmergency(yellow.value, AssessmentText(ModelResult(reply, parse)));
    }
  }

  lemma YellowNoticeIsNotEmergency(kw: string, base: string)
    ensures !StartsWith(YellowLead + kw + YellowTail + base, EmergencyLead)
  {
    var e := YellowLead + kw + YellowTail + base;
    assert e[0] == '\U{26A0}';
    assert EmergencyLead[0] == '\U{1F691}';
  }

  /** A reply whose condition list starts with `null` gets through the extraction and the
      parse, then makes the confidence read throw: the outer handler answers 500 with Green,
      below the floor a yellow keyword had set. */
  lemma NullEntryGivesServerError(req: Request, pre: string, body: string, post: string,
                                  rest: seq<Entry>, assessment: Option<string>, parse: string -> Option<Parsed>)
    requires HasRequiredFields(req) && CheckRedFlags(req.symptoms.value).None?
    requires JsonSpan.BraceFree(pre) && JsonSpan.BraceFree(body)
    requires parse("{" + body + "}") == Some(Parsed(Some([None] + rest), assessment))
    ensures var r := Analyze(req, Replied(pre + "{" + body + "}" + post), parse);
      && r.status == 500 && r.riskLevel == Green && r.topConditions == []
      && (CheckYellowFlags(req.symptoms.value).Some? ==> !AtLeast(r.riskLevel, Floor(CheckYellowFlags(req.symptoms.value))))
  {
    JsonSpan.FlatReplyYieldsItself(pre, body, post);
  }

  /** The reply in the shape the prompt asks for (an outer object whose `topConditions`
      array holds inner objects) loses its outer object to the extraction: the parser only
      sees the first `{"condition": …, "confidence": …}` object, which has neither
      `topConditions` nor `riskAssessment`. The response then carries no conditions, the
      risk is the floor and the assessment is the stand-in text. */
  lemma PromptedShapeFallsToFloor(req: Request, pre: string, mid: string, inner: string, post: string,
                                  parse: string -> Option<Parsed>)
    requires HasRequiredFields(req) && CheckRedFlags(req.symptoms.value).None?
    requires JsonSpan.BraceFree(pre) && JsonSpan.BraceFree(mid) && JsonSpan.BraceFree(inner)
    requires parse("{" + inner + "}") == Some(Parsed(None, None))
    ensures var r := Analyze(req, Replied(pre + "{" + mid + "{" + inner + "}" + post), parse);
      && r.topConditions == []
      && r.riskLevel == Floor(CheckYellowFlags(req.symptoms.value))
      && AssessmentText(ModelResult(Replied(pre + "{" + mid + "{" + inner + "}" + post), parse)) == NoAssessment
  {
    JsonSpan.NestedReplyYieldsInnerObject(pre, mid, inner, post);
  }
}

=== FILE: upload.dfy ===
/** The `predict` cloud function: request guards in the order method, bearer token, token
    verification, image payload; then the sanitised file name and the storage path. */
module Upload {
  import opened Wrappers
  import opened Text
  import Triage

  datatype PredictRequest = PredictRequest(
    httpMethod: string,
    authorization: Option<string>,
    imageBase64: Option<string>,
    fileName: Option<string>)

  datatype Outcome =
    | Preflight
    | MethodNotAllowed
    | MissingToken
    | MissingImage
    | PredictionFailed
    | Stored(path: string)

  function Status(o: Outcome): int {
    match o
    case Preflight => 204
    case MethodNotAllowed => 405
    case MissingToken => 401
    case MissingImage => 400
    case PredictionFailed => 500
    case Stored(_) => 200
  }

  const BearerPrefix: string := "Bearer "
  const DefaultName: string := "upload.jpg"

  /** `authHeader.startsWith("Bearer ") ? authHeader.slice(7) : null`, with a missing header
      read as the empty string. */
  function BearerToken(header: Option<string>): (t: Option<string>)
    ensures t.Some? <==> StartsWith(header.GetOr(""), BearerPrefix)
    ensures t.Some? ==> header.value == BearerPrefix + t.value
  {
    var h := header.GetOr("");
    if StartsWith(h, BearerPrefix) then
      assert h == h[..7] + h[7..];
      Some(h[7..])
    else None
  }

  /** Whatever follows "Bearer " comes back as the token. */
  lemma BearerTokenRoundTrip(token: string)
    ensures BearerToken(Some(BearerPrefix + token)) == Some(token)
  {
    assert (BearerPrefix + token)[..7] == BearerPrefix;
  }

  /** The characters `[a-zA-Z0-9_.-]` that survive the sanitiser. */
  predicate IsAllowed(c: char) {
    ('a' <= c <= 'z') || ('A' <= c <= 'Z') || ('0' <= c <= '9') || c == '_' || c == '.' || c == '-'
  }

  /** `replace(/[^a-zA-Z0-9_.-]/g, "_")`: same length, only allowed characters, allowed
      characters kept in place. */
  function Sanitize(name: string): (r: string)
    ensures |r| == |name|
    ensures forall i :: 0 <= i < |r| ==> IsAllowed(r[i])
    ensures forall i :: 0 <= i < |r| && IsAllowed(name[i]) ==> r[i] == name[i]
    ensures forall i :: 0 <= i < |r| && !IsAllowed(name[i]) ==> r[i] == '_'
  {
    seq(|name|, i requires 0 <= i < |name| => if IsAllowed(name[i]) then name[i] else '_')
  }

  /** `String(fileName || "upload.jpg")` sanitised. */
  function SafeName(fileName: Option<string>): string {
    Sanitize(if Triage.Truthy(fileName) then fileName.value else DefaultName)
  }

  /** Sanitising is idempotent, and it changes a name exactly when the name holds a
      character outside the allowed set. */
  lemma SanitizeIsIdempotent(name: string)
    ensures Sanitize(Sanitize(name)) == Sanitize(name)
    ensures Sanitize(name) == name <==> forall i :: 0 <= i < |name| ==> IsAllowed(name[i])
  {
  }

  function StoragePath(uid: string, scanId: string, safeName: string): string {
    "uploads/" + uid + "/" + scanId + "-" + safeName
  }

  ghost predicate NoSlash(s: string) {
    forall k :: 0 <= k < |s| ==> s[k] != '/'
  }

  /** With a slash-free user id and scan id, the only slashes of the path are the two around
      the user id: the file lands directly in that user's folder whatever the client named
      it. */
  lemma PathStaysInUserFolder(uid: string, scanId: string, fileName: Option<string>)
    requires NoSlash(uid) && NoSlash(scanId)
    ensures var p := StoragePath(uid, scanId, SafeName(fileName));
      && StartsWith(p, "uploads/" + uid + "/")
      && forall k :: 0 <= k < |p| && p[k] == '/' ==> k == 7 || k == 8 + |uid|
  {
    var safe := SafeName(fileName);
    var p := StoragePath(uid, scanId, safe);
    var head := "uploads/" + uid + "/";
    var tail := scanId + "-" + safe;
    assert p == head + tail;
  }

  /** The request handler inside the `cors({ origin: true })` wrapper. With the wrapper's
      defaults an OPTIONS request is answered 204 as a preflight and never reaches the
      handler. `verify` stands for `verifyIdToken` (the user id, or `None` when it throws);
      `stored` says whether the storage, signed-URL and database writes succeeded. */
  function Predict(req: PredictRequest, verify: string -> Option<string>, scanId: string, stored: bool): (r: Outcome)
    ensures r == Preflight <==> req.httpMethod == "OPTIONS"
    ensures r == MethodNotAllowed <==> req.httpMethod != "POST" && req.httpMethod != "OPTIONS"
    ensures r == MissingToken <==>
      req.httpMethod == "POST" && (BearerToken(req.authorization).None? || BearerToken(req.authorization) == Some(""))
    ensures r == PredictionFailed <==>
      && req.httpMethod == "POST" && BearerToken(req.authorization).Some? && BearerToken(req.authorization).value != ""
      && (verify(BearerToken(req.authorization).value).None? || (Triage.Truthy(req.imageBase64) && !stored))
    ensures r == MissingImage <==>
      && req.httpMethod == "POST" && BearerToken(req.authorization).Some? && BearerToken(req.authorization).value != ""
      && verify(BearerToken(req.authorization).value).Some?
      && !Triage.Truthy(req.imageBase64)
    ensures r.Stored? <==>
      && req.httpMethod == "POST" && BearerToken(req.authorization).Some? && BearerToken(req.authorization).value != ""
      && verify(BearerToken(req.authorization).value).Some?
      && Triage.Truthy(req.imageBase64) && stored
    ensures r.Stored? ==>
      && BearerToken(req.authorization).Some?
      && verify(BearerToken(req.authorization).value).Some?
      && r.path == StoragePath(verify(BearerToken(req.authorization).value).value, scanId, SafeName(req.fileName))
  {
    if req.httpMethod == "OPTIONS" then Preflight
    else if req.httpMethod != "POST" then MethodNotAllowed
    else
      match BearerToken(req.authorization)
      case None => MissingToken
      case Some(token) =>
        if token == "" then MissingToken
        else
          match verify(token)
          case None => PredictionFailed
          case Some(uid) =>
            if !Triage.Truthy(req.imageBase64) then MissingImage
            else if !stored then PredictionFailed
            else Stored(StoragePath(uid, scanId, SafeName(req.fileName)))
  }

  /** A stored scan lands in the folder of the user the token verified as, whatever the
      client names the file. */
  lemma StoredScanStaysInUserFolder(req: PredictRequest, verify: string -> Option<string>, scanId: string)
    requires req.httpMethod == "POST" && Triage.Truthy(req.imageBase64)
    requires BearerToken(req.authorization).Some? && BearerToken(req.authorization).value != ""
    requires verify(BearerToken(req.authorization).value).Some?
    requires NoSlash(verify(BearerToken(req.authorization).value).value) && NoSlash(scanId)
    ensures var uid := verify(BearerToken(req.authorization).value).value;
      var r := Predict(req, verify, scanId, true);
      r.Stored? && StartsWith(r.path, "uploads/" + uid + "/")
  {
    PathStaysInUserFolder(verify(BearerToken(req.authorization).value).value, scanId, req.fileName);
  }

  /** The header "Bearer " with nothing after it is refused before verification, and the
      preflight and any refusal by method or token do not depend on the verifier. */
  lemma GuardsPrecedeVerification(req: PredictRequest, v1: string -> Option<string>, v2: string -> Option<string>,
                                  scanId: string, stored: bool)
    requires req.httpMethod != "POST" || req.authorization == Some(BearerPrefix) || BearerToken(req.authorization).None?
    ensures Predict(req, v1, scanId, stored) == Predict(req, v2, scanId, stored)
    ensures Status(Predict(req, v1, scanId, stored)) in {204, 405, 401}
    ensures req.httpMethod == "OPTIONS" <==> Status(Predict(req, v1, scanId, stored)) == 204
  {
    if req.httpMethod == "POST" && req.authorization == Some(BearerPrefix) {
      assert BearerPrefix[7..] == "";
    }
  }
}

=== FILE: wrappers.dfy ===
/** The optional value used wherever the source has `null`, `undefined` or a missing key. */
module Wrappers {

  datatype Option<+T> = None | Some(value: T) {

    /** Returns the wrapped value, or `default` when there is none (JavaScript's `x || default`
        for a value that is either absent or truthy). */
    function GetOr(default: T): T {
      match this
      case Some(v) => v
      case None => default
    }
  }
}
